=== FILE: README.md ===
# matchlog functions: a Dafny model

This project models the Firebase Cloud Functions backend of the matchlog app
(`functions/src/index.ts`). It covers the jobs that keep the Firestore collections
`schedules`, `notification_settings`, `users` and `attendance_records` consistent
and that send push notifications about matches:

- **sendKickoffNotifications** is a job that runs every five minutes. It selects the
  scheduled matches kicking off in `[now + 30 min, now + 35 min)`. It then sends each
  opted-in user with a token a "Match Starting Soon!" message (module `KickoffNotifier`).
- **onMatchFinished** runs on an update of a `schedules` document. It sends the result
  message only on the update that changes the status to `finished` (module
  `ResultNotifier`).
- **Recipient resolution and fan-out** are shared by both notifiers. A settings row
  with the flag set, whose user has a non-empty `fcmToken`, yields one send. A send
  that throws is caught and the loop goes on (module `Delivery`).
- **onUserFavoritesUpdate** diffs a user's favourite teams. It puts boost updates into
  one write batch: `true` for the matches of newly followed teams, then `false` for
  the matches of unfollowed teams that nobody follows any more. The batch is then
  committed (modules `FollowSync` and `Batch`).
- **cleanupOldNotifications** deletes, in one batch, the settings of every match that
  kicked off more than seven days ago (module `RetentionSweep`).
- **registerFCMToken** is a callable endpoint. It checks the caller and then the token,
  then writes the token and the server time on the caller's user document (module
  `TokenRegistration`).
- **getAttendanceStats** is a callable endpoint. It folds the caller's attendance
  records into a total, per-stadium and per-league counts, and wins/draws/losses
  (module `AttendanceStats`).

Model of the store:

- The store is an immutable `Store` with one sequence per collection. Every query
  returns its documents in the order of that sequence; the real store orders range
  queries by the range field (see "## Left out").
- A write batch is a sequence of writes, applied first to last, so a later write to
  the same document wins.
- Score fields are three-valued (`Missing`, `Null`, `Value(n)`), because the
  JavaScript code treats an absent field (`undefined`) and `null` differently.
- The transport `messaging.send` is a parameter `send: (string, Payload) -> bool`. It
  returns false where the real call throws.
- The callable argument of registerFCMToken is `CallData`: `NoData` for a `null`
  argument, else an object whose `token` field may be absent.
- The clock is a parameter `now` in milliseconds.

Two consequences of the code as written:

- **Duplicate rows.** Recipients are not deduplicated. Every eligible settings row
  yields its own send, even when two rows name the same user.
- **The boost flag.** The code does not keep `followedBoost` equal to "some user
  follows either team of the match". On an unfollow it only asks whether anyone still
  follows the *unfollowed* team, and its `false` writes come after the `true` writes
  in the batch. So a match can be cleared while its other team is still followed:
  `FollowSync.ClearedWhileOtherTeamFollowed` exhibits such a store, and
  `FollowSync.SyncOutcome` gives the value the batch actually leaves.

## Model

| member | source | states |
|---|---|---|
| Schema.FindUser | functions/src/index.ts:101-102 | the point lookup `users.doc(id).get()` finds a user with that id exactly when one is stored, and returns a stored one |
| Delivery.TokenOf | functions/src/index.ts:101-104 | a send is made to a user only when the user document exists and its `fcmToken` is truthy; the token used is that document's non-empty `fcmToken` |
| Delivery.Recipients | functions/src/index.ts:89-104 | the recipients for a match and flag are exactly the settings rows of that match with the flag set whose user has a token, at most one per row, each with that user's token |
| Delivery.RecipientsOfOne | functions/src/index.ts:89-104 | one settings row contributes one recipient when it is eligible and none otherwise |
| Delivery.RecipientsConcat | functions/src/index.ts:97-100 | rows are resolved one by one: the recipients of two row lists joined are the two recipient lists joined |
| Delivery.FanOut | functions/src/index.ts:100-135 | one attempt per recipient, in order, with that recipient's user and token and the shared message; each attempt's outcome is its own send's result, so a throwing send neither stops nor changes the others |
| Delivery.FailureIsolation | functions/src/index.ts:104-134 | two runs whose transports fail differently make the same attempts in the same order |
| Delivery.FanOutMembership | functions/src/index.ts:100-135 | an attempt is made exactly when it goes to one of the recipients with the message and that send's own outcome |
| KickoffNotifier.SelectMatches | functions/src/index.ts:68-78 | a match is selected exactly when its kickoff is at or after now + 30 min, before now + 35 min, and its status is "scheduled" |
| KickoffNotifier.SendAll | functions/src/index.ts:85-137 | the loop over selected matches makes exactly the attempts of each match's own fan-out |
| KickoffNotifier.SendAllOne | functions/src/index.ts:85-137 | one selected match yields exactly its own fan-out: one attempt per eligible settings row, in settings order |
| KickoffNotifier.SendAllConcat | functions/src/index.ts:85-137 | matches are handled one after another, so a run is each selected match's fan-out in turn, with no attempt repeated or dropped |
| KickoffNotifier.WindowsTile | functions/src/index.ts:65-70 | the window is as wide as the five-minute cron interval; consecutive ticks' windows touch and do not overlap; a kickoff exactly 35 minutes ahead belongs to the next tick |
| KickoffNotifier.ExactlyOneTick | functions/src/index.ts:65-77 | for any tick sequence five minutes apart, every kickoff instant falls in the window of exactly one tick |
| KickoffNotifier.AttemptOrigin | functions/src/index.ts:85-110 | each attempt of a run comes from a selected match and an eligible settings row; it carries that match's kickoff message and that user's token |
| KickoffNotifier.AttemptMade | functions/src/index.ts:85-110 | every selected match and eligible settings row of it produces its attempt |
| KickoffNotifier.KickoffRunAttempts | functions/src/index.ts:64-140 | a run sends to (match, user, token) exactly when the match is selected, a row of that match opts the user into kickoff notifications, and the user's token is that token |
| KickoffNotifier.KickoffRunMessages | functions/src/index.ts:106-115 | every message is titled "Match Starting Soon!", with body "{home} vs {away} kicks off in 30 minutes" for a selected match whose id it carries |
| Render.NatToString | functions/src/index.ts:177 | the decimal text of a score is non-empty, all digits, and without a leading zero |
| Render.DigitsValueOfNatToString | functions/src/index.ts:177 | reading the decimal text of a natural number back gives that number |
| Render.IntToStringRoundTrip | functions/src/index.ts:177 | the text of an integer, with a minus sign when negative, parses back to that integer |
| Render.ScoreText | functions/src/index.ts:177 | a numeric score renders as text that parses back to it; an absent score renders as "undefined" and a null one as "null" |
| ResultNotifier.ResultRun | functions/src/index.ts:146-193 | nothing is sent unless the update moves the status to "finished"; an update of an already finished match sends nothing; every message is the result message of the updated document |
| ResultNotifier.ResultRunAttempts | functions/src/index.ts:153-188 | an invocation sends to a user and token exactly when the update is the finishing edge, a row of that match opts the user into results, and the user's token is that token |
| ResultNotifier.ResultBodyScores | functions/src/index.ts:176-177 | the result body names the home team, both scores as text that parses back to them, and the away team, in the order "{home} {h} - {a} {away}" |
| Batch.SetBoost | functions/src/index.ts:232 | a boost update writes only `followedBoost` and only on the document with that id |
| Batch.Keep | functions/src/index.ts:304 | deleting settings removes exactly those with a deleted id and keeps the others |
| Batch.LastBoost | functions/src/index.ts:217-261 | the last boost update to a document, when there is one, is a write of the batch; when there is none, the batch has no update to that document |
| Batch.DeletedIds | functions/src/index.ts:294-309 | a setting id is deleted exactly when the batch holds a delete of it |
| Batch.KeepKeep | functions/src/index.ts:294-309 | deleting in two steps removes the same settings as deleting the union at once |
| Batch.ApplyEffect | functions/src/index.ts:217-261 | a committed batch leaves each match with the value of the last boost update aimed at it, or untouched; it keeps exactly the settings not deleted, in order; users and attendance records are unchanged |
| Batch.ApplyIdempotent | functions/src/index.ts:261 | committing the same batch a second time changes nothing |
| Batch.TargetsConcat | functions/src/index.ts:217-261 | a document is updated by a joined batch exactly when either part updates it |
| Batch.LastBoostUniform | functions/src/index.ts:231-233 | when every write of a batch sets the same value, a match ends with that value exactly when some write targets it |
| Batch.LastBoostConcat | functions/src/index.ts:217-261 | in a batch made of two parts, the later part's last update to a document wins when it has one |
| FollowSync.Fixtures | functions/src/index.ts:221-229 | the team queries see each match's id and team ids, one per match, in order |
| FollowSync.Diff | functions/src/index.ts:212-215 | `filter(id => !ys.includes(id))` keeps exactly the elements of the first list missing from the second, and is empty when every element appears in the second |
| FollowSync.HomeMatches | functions/src/index.ts:221-224 | the home query returns exactly the matches whose home team is the team |
| FollowSync.AwayMatches | functions/src/index.ts:226-229 | the away query returns exactly the matches whose away team is the team |
| FollowSync.Updates | functions/src/index.ts:231-233 | the writes are exactly boost updates to the given value of the listed matches |
| FollowSync.UpdatesOnePerMatch | functions/src/index.ts:231-233 | one boost update to the given value per listed match, in the listed order |
| FollowSync.TeamWrites | functions/src/index.ts:220-234 | the writes for one team set one value and reach exactly the matches that team plays in, at home or away |
| FollowSync.FollowWrites | functions/src/index.ts:220-234 | every write for the newly followed teams sets the boost to true |
| FollowSync.FollowWritesTargets | functions/src/index.ts:220-234 | the follow writes reach exactly the matches of the newly followed teams |
| FollowSync.UnfollowWrites | functions/src/index.ts:237-259 | every write for the unfollowed teams sets the boost to false |
| FollowSync.UnfollowWritesTargets | functions/src/index.ts:237-259 | the unfollow writes reach exactly the matches of unfollowed teams that no user follows any more |
| FollowSync.FollowDiff | functions/src/index.ts:208-215 | newly followed teams are those in the new list and not the old one, newly unfollowed ones the reverse; no team is both; an absent list counts as empty |
| FollowSync.FixtureById | functions/src/index.ts:221-229 | with unique document ids, the fixture a team query returns for an id is that match's own |
| FollowSync.FollowTargetsMatch | functions/src/index.ts:220-234 | with unique document ids, the follow writes reach a match exactly when one of its teams is newly followed |
| FollowSync.UnfollowTargetsMatch | functions/src/index.ts:237-259 | with unique document ids, the unfollow writes reach a match exactly when one of its teams was unfollowed and has no follower left |
| FollowSync.SyncLastBoost | functions/src/index.ts:217-261 | for each match, the last boost write of the batch is false if it involves an unfollowed team nobody follows, else true if it involves a newly followed team, else none |
| FollowSync.SyncWritesAreBoosts | functions/src/index.ts:217-259 | the follow-sync batch deletes nothing |
| FollowSync.SyncOutcome | functions/src/index.ts:202-263 | after the commit, each match's boost is false if it involves an unfollowed team nobody follows, else true if it involves a newly followed team, else unchanged; no other field or collection is written |
| FollowSync.SyncNoChange | functions/src/index.ts:208-261 | an update that leaves the set of favourite teams as it was produces an empty batch and leaves the store unchanged |
| FollowSync.ApplyKeepsFixtures | functions/src/index.ts:221-261 | a committed batch changes no match's id or teams, and no user, so every team query and follower check gives the same answer afterwards |
| FollowSync.SyncIdempotent | functions/src/index.ts:202-263 | a redelivered update computes the same batch on the store the first run left, and committing it changes nothing |
| FollowSync.ClearedWhileOtherTeamFollowed | functions/src/index.ts:237-259 | a match A vs B ends with boost false when its last B follower leaves, even though another user still follows A |
| RetentionSweep.OldMatchIds | functions/src/index.ts:277-286 | an id is collected exactly when some match with that id kicked off strictly before now − 7 days |
| RetentionSweep.DeletesFor | functions/src/index.ts:298-306 | the deletes for one match delete exactly the settings of that match |
| RetentionSweep.DeletesForOne | functions/src/index.ts:303-306 | one setting yields one delete of its id when it belongs to the match and none otherwise |
| RetentionSweep.DeletesForConcat | functions/src/index.ts:303-306 | settings are handled one by one, so the deletes for one match are one per setting of that match, in settings order |
| RetentionSweep.DeletesForAll | functions/src/index.ts:297-307 | the loop deletes exactly the settings whose match id was collected |
| RetentionSweep.Fresh | functions/src/index.ts:273-312 | the settings a sweep should keep are exactly those not tied to a match that kicked off before now − 7 days |
| RetentionSweep.SweepWritesSpec | functions/src/index.ts:281-307 | the sweep batch holds only deletes; it deletes a setting id exactly when a setting with that id belongs to an old match |
| RetentionSweep.SettingById | functions/src/index.ts:303-304 | with unique document ids, a setting is determined by its id |
| RetentionSweep.KeepIsFresh | functions/src/index.ts:294-309 | with unique ids, deleting the ids of the stale settings keeps exactly the fresh ones, in order |
| RetentionSweep.KeepAgree | functions/src/index.ts:303-304 | which settings are kept depends only on whether each listed setting's id is deleted |
| RetentionSweep.SweepOutcome | functions/src/index.ts:273-312 | a sweep removes exactly the settings of matches that kicked off before now − 7 days; every other setting stays, in order, and nothing else changes |
| RetentionSweep.SweepIdempotent | functions/src/index.ts:273-312 | a second sweep at the same instant, right after the first, deletes nothing |
| RetentionSweep.NoOldMatchesNoOp | functions/src/index.ts:288-291 | with no match older than the cutoff the sweep writes nothing |
| TokenRegistration.SetToken | functions/src/index.ts:331-334 | the update sets `fcmToken` and `updatedAt` on the caller's document only, and changes no other field or document |
| TokenRegistration.RegisterToken | functions/src/index.ts:321-337 | fails unauthenticated exactly without a caller; fails internally exactly when a caller passes a `null` argument, or a non-empty token while the caller's document is missing; fails with an invalid argument exactly when a caller passes an object whose token is absent or empty, whether or not the document exists; otherwise returns success and writes only the caller's token and timestamp |
| TokenRegistration.RegisteredTokenIsFound | functions/src/index.ts:321-337 | after a successful registration the caller's document holds the token sent |
| AttendanceStats.TallyAsWritten | functions/src/index.ts:374-382 | as written: untallied exactly when a score is null; a win or loss exactly when both scores are numbers and compare that way; everything else is a draw |
| AttendanceStats.Tally | functions/src/index.ts:374-382 | the intended tally: a record counts only with both scores present, as a win, draw or loss by comparing home against away |
| AttendanceStats.AbsentScoreTalliedAsDraw | functions/src/index.ts:374-382 | the two tallies differ exactly on records with an absent score and no null one; the written code makes those draws |
| AttendanceStats.Fold | functions/src/index.ts:355-383 | the corrected loop (absent scores untallied) never changes `totalMatches` |
| AttendanceStats.RecordsOf | functions/src/index.ts:348-353 | the query returns exactly the caller's records |
| AttendanceStats.GetAttendanceStats | functions/src/index.ts:342-386 | the corrected endpoint: fails, as unauthenticated, exactly without a caller; otherwise `totalMatches` is the number of the caller's records (the rest of its report is stated by AggregateSpec) |
| AttendanceStats.FoldAsWritten | functions/src/index.ts:364-383 | the loop as written never changes `totalMatches` |
| AttendanceStats.GetAttendanceStatsAsWritten | functions/src/index.ts:342-386 | the endpoint as written: fails, as unauthenticated, exactly without a caller; otherwise `totalMatches` is the number of the caller's records |
| AttendanceStats.FoldAsWrittenDraws | functions/src/index.ts:364-383 | the loop as written produces the corrected report except that draws are higher by the number of records with an absent score and no null one |
| AttendanceStats.AsWrittenEndpointDraws | functions/src/index.ts:342-386 | the endpoint as written succeeds exactly when the corrected one does, and returns the same report with draws higher by the caller's records that have an absent score and no null one |
| AttendanceStats.AbsentRecordExample | functions/src/index.ts:374-382 | one record without score fields: the endpoint as written reports one draw, the corrected one none |
| AttendanceStats.SumOverRemove | functions/src/index.ts:364-371 | the sum of counts does not depend on the order in which keys are taken out |
| AttendanceStats.SumOverAgree | functions/src/index.ts:364-371 | two maps that agree on a set of keys sum to the same value over it |
| AttendanceStats.MapSumBump | functions/src/index.ts:366-371 | incrementing a key's count, starting from 0 when the key is absent, adds exactly one to the sum of the counts |
| AttendanceStats.MapSumEmpty | functions/src/index.ts:360-361 | the initial empty map sums to zero |
| AttendanceStats.FoldTallies | functions/src/index.ts:364-383 | the loop adds to wins, draws and losses exactly the numbers of records that are home wins, level and away wins |
| AttendanceStats.FoldStadiums | functions/src/index.ts:364-367 | each stadium's count grows by the number of records at it; a stadium becomes a key exactly when one is visited; the counts' sum grows by the number of records |
| AttendanceStats.FoldLeagues | functions/src/index.ts:369-371 | each league's count grows by the number of records in it; a league becomes a key exactly when one is seen; the counts' sum grows by the number of records |
| AttendanceStats.AggregateSpec | functions/src/index.ts:355-385 | the total is the number of records and equals the sum of the stadium counts and of the league counts; each count is the number of records naming that key, with no key of count zero; wins, draws and losses count the scored records by comparison, and together they are exactly the scored records |
| AttendanceStats.OutcomesPartitionScored | functions/src/index.ts:374-382 | every record with both scores is exactly one of a home win, a draw or an away win |
| AttendanceStats.ThreeRecordExample | functions/src/index.ts:355-385 | three records, one with null scores, give total 3, 1 win, 1 draw, 0 losses, stadiums {A: 2, B: 1} and leagues {X: 2, Y: 1} |

## Left out

- updateDailySchedules: its body only logs and returns, so there is no behaviour to model.
- The real clock: `new Date()` and `serverTimestamp()` are the parameter `now`. The cron schedule, the Asia/Seoul time zone and the retry or delivery guarantees of the platform are not modelled. The five-minute tick spacing is an assumption of `KickoffNotifier.ExactlyOneTick`.
- RetentionSweep.IsOld: `setDate(getDate() - 7)` is modelled as exactly seven days of milliseconds. Calendar and daylight-saving arithmetic is not modelled.
- Concurrency: each trigger is one atomic step against one store state. Two favourite-list updates racing on the "does anyone still follow" check are not modelled.
- Store failures: a failing query, a failing batch commit and a store call that rejects are not modelled, except for the missing user document in registerFCMToken. Neither is the batch limit of 500 writes.
- `doc(userId)` with an empty or malformed id throws in the real store and aborts the run. The model treats such an id as a user that is not found.
- The Android channel, the APNs sound and badge, and all console logging: they do not affect which messages are sent or what is stored.
- Delivery.FanOut: the messaging service is the abstract parameter `send`. Only its success or failure is modelled, not what a device receives.
- Match fields the functions never read (league, logos, stadium, broadcast) are omitted from the datatype.
- AttendanceStats: scores are integers. JavaScript's comparison of non-numeric or fractional values is not modelled beyond absent and null. Record fields other than stadium, league, userId and the scores are omitted.
- Render.ScoreText: scores are rendered as plain decimal integers. JavaScript prints numbers of magnitude 10^21 or more in exponent form (`1e+21`), and that form is not modelled.
- AttendanceStats.GetAttendanceStats uses the corrected tally (see Findings), so an attendance record with an absent score is not a draw there. `AttendanceStats.GetAttendanceStatsAsWritten` is the endpoint as written, and `AttendanceStats.AsWrittenEndpointDraws` relates the two.
- AttendanceStats.AggregateSpec: the counts are a map, while the code counts into a plain JavaScript object. Stadium or league names that shadow `Object.prototype` members (`constructor`, `toString`, `valueOf`, `hasOwnProperty`, …) or that are `__proto__` behave differently there, and such keys are not modelled.
- TokenRegistration.RegisterToken: the token is a string or absent. A truthy non-string token (a number, an object) passes the code's `if (!token)` test and is stored, which the model cannot express.
- KickoffNotifier.SelectMatches: selected matches keep store order, while the real range query returns them in `kickoff` order; the same holds for `RetentionSweep.OldMatchIds`. No property here depends on the order of matches.
- Delivery.FanOut: `send` is a function of the token and the message, so two attempts with the same token and message have the same outcome. A transport that fails once and succeeds on a repeat cannot be expressed.

## Findings

| source | as written | input that shows it | evidently intended | confidence | as-written member | corrected member |
|---|---|---|---|---|---|---|
| functions/src/index.ts:374-382 | the guard `record.homeScore !== null && record.awayScore !== null` lets through a record whose score fields are absent (`undefined`); both comparisons are then false, so it is counted as a draw | an attendance record without `homeScore` and `awayScore` fields gives `draws == 1` | only records with both scores present are counted as a win, draw or loss | medium, not executed | AttendanceStats.GetAttendanceStatsAsWritten, AttendanceStats.AsWrittenEndpointDraws, AttendanceStats.AbsentRecordExample | AttendanceStats.GetAttendanceStats, AttendanceStats.AggregateSpec |

=== FILE: batch.dfy ===
/**
 * A Firestore write batch as an ordered list of writes, applied in order when the
 * batch commits: a later write to the same document wins over an earlier one.
 */
module Batch {
  import opened Wrappers
  import opened Schema

  /** `batch.update(scheduleRef, {followedBoost})` or `batch.delete(settingRef)`. */
  datatype Write = UpdateBoost(matchId: Id, boost: bool) | DeleteSetting(settingId: Id)

  /** `m` with its boost replaced by `o`, or unchanged when `o` is None. */
  function WithBoost(m: Match, o: Option<bool>): Match {
    if o.Some? then m.(followedBoost := o) else m
  }

  /** The `schedules` collection after an update of `followedBoost` on document `id`. */
  function SetBoost(ms: seq<Match>, id: Id, b: bool): (r: seq<Match>)
    ensures |r| == |ms|
    ensures forall i :: 0 <= i < |ms| ==> r[i] == if ms[i].id == id then ms[i].(followedBoost := Some(b)) else ms[i]
  {
    if ms == [] then []
    else [if ms[0].id == id then ms[0].(followedBoost := Some(b)) else ms[0]] + SetBoost(ms[1..], id, b)
  }

  /** The settings whose ids are not in `ids`, in their original order. */
  function Keep(ss: seq<NotificationSetting>, ids: set<Id>): (r: seq<NotificationSetting>)
    ensures |r| <= |ss|
    ensures forall st :: st in r <==> st in ss && st.id !in ids
  {
    if ss == [] then []
    else if ss[0].id in ids then Keep(ss[1..], ids)
    else [ss[0]] + Keep(ss[1..], ids)
  }

  function ApplyWrite(w: Write, s: Store): Store {
    match w
    case UpdateBoost(id, b) => s.(matches := SetBoost(s.matches, id, b))
    case DeleteSetting(id) => s.(settings := Keep(s.settings, {id}))
  }

  /** Commits the batch: the writes take effect one after another, first to last. */
  function Apply(ws: seq<Write>, s: Store): Store
    decreases |ws|
  {
    if ws == [] then s
    else ApplyWrite(ws[|ws| - 1], Apply(ws[..|ws| - 1], s))
  }

  /** The value of the last boost update to document `id` in the batch, if any. */
  function LastBoost(ws: seq<Write>, id: Id): (r: Option<bool>)
    ensures r.Some? ==> UpdateBoost(id, r.value) in ws
    ensures r.None? ==> forall b :: UpdateBoost(id, b) !in ws
  {
    if ws == [] then None
    else
      var w := ws[|ws| - 1];
      if w.UpdateBoost? && w.matchId == id then Some(w.boost)
      else
        assert ws == ws[..|ws| - 1] + [w];
        LastBoost(ws[..|ws| - 1], id)
  }

  /** The ids of the settings the batch deletes. */
  function DeletedIds(ws: seq<Write>): (r: set<Id>)
    ensures forall id :: id in r <==> DeleteSetting(id) in ws
  {
    if ws == [] then {}
    else
      var w := ws[|ws| - 1];
      assert ws == ws[..|ws| - 1] + [w];
      (if w.DeleteSetting? then {w.settingId} else {}) + DeletedIds(ws[..|ws| - 1])
  }

  lemma {:induction false} KeepNone(ss: seq<NotificationSetting>)
    ensures Keep(ss, {}) == ss
  {
    if ss != [] {
      KeepNone(ss[1..]);
    }
  }

  lemma {:induction false} KeepKeep(ss: seq<NotificationSetting>, a: set<Id>, b: set<Id>)
    ensures Keep(Keep(ss, a), b) == Keep(ss, a + b)
  {
    if ss != [] {
      KeepKeep(ss[1..], a, b);
    }
  }

  /**
   * Last write wins: after the batch, each match carries the value of the last
   * boost update aimed at it (and is otherwise untouched), and the settings left
   * are those the batch does not delete, in their order; users and attendance
   * records are not written.
   */
  lemma {:induction false} ApplyEffect(ws: seq<Write>, s: Store)
    ensures Apply(ws, s).users == s.users && Apply(ws, s).attendance == s.attendance
    ensures |Apply(ws, s).matches| == |s.matches|
    ensures forall i :: 0 <= i < |s.matches| ==>
              Apply(ws, s).matches[i] == WithBoost(s.matches[i], LastBoost(ws, s.matches[i].id))
    ensures Apply(ws, s).settings == Keep(s.settings, DeletedIds(ws))
    decreases |ws|
  {
    if ws == [] {
      KeepNone(s.settings);
    } else {
      var init := ws[..|ws| - 1];
      var w := ws[|ws| - 1];
      ApplyEffect(init, s);
      match w {
        case UpdateBoost(id, b) =>
          assert DeletedIds(ws) == DeletedIds(init);
        case DeleteSetting(id) =>
          assert DeletedIds(ws) == {id} + DeletedIds(init);
          KeepKeep(s.settings, DeletedIds(init), {id});
          assert DeletedIds(init) + {id} == DeletedIds(ws);
      }
    }
  }

  /** Committing the same batch twice leaves the store as committing it once. */
  lemma {:induction false} ApplyIdempotent(ws: seq<Write>, s: Store)
    ensures Apply(ws, Apply(ws, s)) == Apply(ws, s)
  {
    var s1 := Apply(ws, s);
    var s2 := Apply(ws, s1);
    ApplyEffect(ws, s);
    ApplyEffect(ws, s1);
    assert s2.matches == s1.matches;
    KeepKeep(s.settings, DeletedIds(ws), DeletedIds(ws));
    assert DeletedIds(ws) + DeletedIds(ws) == DeletedIds(ws);
  }

  /** Some write of the batch updates the boost of document `id`. */
  predicate Targets(ws: seq<Write>, id: Id) {
    UpdateBoost(id, true) in ws || UpdateBoost(id, false) in ws
  }

  lemma {:induction false} TargetsConcat(ws1: seq<Write>, ws2: seq<Write>, id: Id)
    ensures Targets(ws1 + ws2, id) <==> Targets(ws1, id) || Targets(ws2, id)
  {
  }

  /** Every write of the batch is a boost update to the value `b`. */
  predicate Uniform(ws: seq<Write>, b: bool) {
    forall w :: w in ws ==> w.UpdateBoost? && w.boost == b
  }

  /** When every write sets the same value, a match ends with it exactly when some write targets it. */
  lemma {:induction false} LastBoostUniform(ws: seq<Write>, b: bool, id: Id)
    requires Uniform(ws, b)
    ensures LastBoost(ws, id) == if Targets(ws, id) then Some(b) else None
  {
  }

  /** Of two consecutive parts of a batch, the later one decides where it writes at all. */
  lemma {:induction false} LastBoostConcat(ws1: seq<Write>, ws2: seq<Write>, id: Id)
    ensures LastBoost(ws1 + ws2, id) == if LastBoost(ws2, id).Some? then LastBoost(ws2, id) else LastBoost(ws1, id)
    decreases |ws2|
  {
    if ws2 == [] {
      assert ws1 + ws2 == ws1;
    } else {
      var w := ws2[|ws2| - 1];
      assert (ws1 + ws2)[..|ws1 + ws2| - 1] == ws1 + ws2[..|ws2| - 1];
      LastBoostConcat(ws1, ws2[..|ws2| - 1], id);
    }
  }
}

=== FILE: delivery.dfy ===
/**
 * Recipient resolution and per-recipient delivery, shared by the kickoff and
 * result notifiers (functions/src/index.ts, the settings query, the user
 * lookups and the try/catch around each `messaging.send`).
 */
module Delivery {
  import opened Wrappers
  import opened Schema

  /** The opt-in flag a notifier queries `notification_settings` by. */
  datatype Flag = NotifyKickoff | NotifyResult

  /** The `data.type` field of a message. */
  datatype Kind = KickoffKind | ResultKind

  /** The notification title and body and the `data` map `{type, matchId}` of a message. */
  datatype Payload = Payload(title: string, body: string, kind: Kind, matchId: Id)

  /** A user the notifier will send to, with the token it will use. */
  datatype Recipient = Recipient(userId: Id, token: string)

  /** One call of `messaging.send`, and whether it resolved (true) or threw (false). */
  datatype Attempt = Attempt(userId: Id, token: string, payload: Payload, delivered: bool)

  function FlagSet(s: NotificationSetting, flag: Flag): bool {
    match flag
    case NotifyKickoff => s.notifyKickoff
    case NotifyResult => s.notifyResult
  }

  /**
   * The token a send to user `id` uses: the `fcmToken` of the user document, when
   * the document exists and the token is truthy (a non-empty string).
   */
  function TokenOf(users: seq<User>, id: Id): (r: Option<string>)
    ensures r.Some? <==> exists u :: u in users && u.id == id && FindUser(users, id) == Some(u)
                                     && u.fcmToken.Some? && u.fcmToken.value != ""
    ensures r.Some? ==> r.value != "" && FindUser(users, id).value.fcmToken == r
  {
    match FindUser(users, id)
    case None => None
    case Some(u) => if u.fcmToken.Some? && u.fcmToken.value != "" then u.fcmToken else None
  }

  /** A settings row that makes its user a recipient for `matchId` under `flag`. */
  predicate Eligible(s: NotificationSetting, users: seq<User>, matchId: Id, flag: Flag) {
    s.matchId == matchId && FlagSet(s, flag) && TokenOf(users, s.userId).Some?
  }

  /** The recipient an eligible settings row contributes. */
  function RecipientOf(s: NotificationSetting, users: seq<User>): Recipient
    requires TokenOf(users, s.userId).Some?
  {
    Recipient(s.userId, TokenOf(users, s.userId).value)
  }

  /**
   * The recipients of one notification for `matchId`: one per settings row of that
   * match whose flag is set and whose user has a token, in settings order. Rows are
   * not deduplicated, and rows whose user document is missing are skipped.
   */
  function Recipients(settings: seq<NotificationSetting>, users: seq<User>, matchId: Id, flag: Flag): (r: seq<Recipient>)
    ensures |r| <= |settings|
    ensures forall rc :: rc in r ==>
              exists s :: s in settings && Eligible(s, users, matchId, flag) && rc == RecipientOf(s, users)
    ensures forall s :: s in settings && Eligible(s, users, matchId, flag) ==> RecipientOf(s, users) in r
  {
    if settings == [] then []
    else
      var rest := Recipients(settings[1..], users, matchId, flag);
      if Eligible(settings[0], users, matchId, flag) then [RecipientOf(settings[0], users)] + rest else rest
  }

  /** A single settings row yields exactly one recipient when eligible and none otherwise. */
  lemma {:induction false} RecipientsOfOne(s: NotificationSetting, users: seq<User>, matchId: Id, flag: Flag)
    ensures Recipients([s], users, matchId, flag)
            == if Eligible(s, users, matchId, flag) then [RecipientOf(s, users)] else []
  {
    assert [s][1..] == [];
  }

  /** Recipients are resolved row by row: resolving a concatenation concatenates the results. */
  lemma {:induction false} RecipientsConcat(a: seq<NotificationSetting>, b: seq<NotificationSetting>,
                                            users: seq<User>, matchId: Id, flag: Flag)
    ensures Recipients(a + b, users, matchId, flag)
            == Recipients(a, users, matchId, flag) + Recipients(b, users, matchId, flag)
  {
    if a == [] {
      assert a + b == b;
    } else {
      assert (a + b)[0] == a[0];
      assert (a + b)[1..] == a[1..] + b;
      RecipientsConcat(a[1..], b, users, matchId, flag);
    }
  }

  /**
   * Sends `p` to every recipient in turn. A failed send is caught and recorded, and the
   * loop goes on: the k-th attempt exists and its outcome is the k-th send's own.
   */
  function FanOut(rs: seq<Recipient>, p: Payload, send: (string, Payload) -> bool): (r: seq<Attempt>)
    ensures |r| == |rs|
    ensures forall k :: 0 <= k < |rs| ==>
              r[k].userId == rs[k].userId && r[k].token == rs[k].token && r[k].payload == p
              && r[k].delivered == send(rs[k].token, p)
  {
    if rs == [] then []
    else [Attempt(rs[0].userId, rs[0].token, p, send(rs[0].token, p))] + FanOut(rs[1..], p, send)
  }

  /** The attempt with its outcome forgotten: who was tried, with what. */
  function Tried(a: Attempt): (Id, string, Payload) {
    (a.userId, a.token, a.payload)
  }

  /**
   * Failure isolation: which attempts are made does not depend on how any send
   * turns out. Two runs whose transports fail differently try the same
   * recipients, in the same order, with the same payload.
   */
  lemma {:induction false} FailureIsolation(rs: seq<Recipient>, p: Payload, send1: (string, Payload) -> bool,
                         send2: (string, Payload) -> bool)
    ensures |FanOut(rs, p, send1)| == |FanOut(rs, p, send2)| == |rs|
    ensures forall k :: 0 <= k < |rs| ==> Tried(FanOut(rs, p, send1)[k]) == Tried(FanOut(rs, p, send2)[k])
  {
  }

  /** An attempt is in the fan-out exactly when it goes to one of the recipients. */
  lemma {:induction false} FanOutMembership(rs: seq<Recipient>, p: Payload, send: (string, Payload) -> bool, a: Attempt)
    ensures a in FanOut(rs, p, send) <==>
            exists rc :: rc in rs && a == Attempt(rc.userId, rc.token, p, send(rc.token, p))
  {
    var r := FanOut(rs, p, send);
    if a in r {
      var k :| 0 <= k < |r| && r[k] == a;
      assert rs[k] in rs;
    }
    if exists rc :: rc in rs && a == Attempt(rc.userId, rc.token, p, send(rc.token, p)) {
      var rc :| rc in rs && a == Attempt(rc.userId, rc.token, p, send(rc.token, p));
      var k :| 0 <= k < |rs| && rs[k] == rc;
      assert r[k] == a;
    }
  }
}

=== FILE: followsync.dfy ===
/**
 * `onUserFavoritesUpdate`: when a user's followed teams change, set `followedBoost`
 * on the matches of newly followed teams and clear it on the matches of newly
 * unfollowed teams nobody follows any more, all in one batch.
 */
module FollowSync {
  import opened Wrappers
  import opened Schema
  import opened Batch

  /** What the schedules queries by team see of a match: its id and its two teams. */
  datatype Fixture = Fixture(id: Id, homeTeamId: Id, awayTeamId: Id)

  function FixtureOf(m: Match): Fixture {
    Fixture(m.id, m.homeTeamId, m.awayTeamId)
  }

  function Fixtures(ms: seq<Match>): (r: seq<Fixture>)
    ensures |r| == |ms|
    ensures forall i :: 0 <= i < |ms| ==> r[i] == FixtureOf(ms[i])
  {
    if ms == [] then [] else [FixtureOf(ms[0])] + Fixtures(ms[1..])
  }

  /** `team` plays in the match, at home or away. */
  predicate Involves(f: Fixture, team: Id) {
    f.homeTeamId == team || f.awayTeamId == team
  }

  /** `xs.filter(id => !ys.includes(id))`: the elements of `xs` missing from `ys`, in order. */
  function Diff(xs: seq<Id>, ys: seq<Id>): (r: seq<Id>)
    ensures forall t :: t in r <==> t in xs && t !in ys
    ensures (forall t :: t in xs ==> t in ys) ==> r == []
  {
    if xs == [] then []
    else if xs[0] in ys then Diff(xs[1..], ys)
    else [xs[0]] + Diff(xs[1..], ys)
  }

  function NewlyFollowed(before: User, after: User): seq<Id> {
    Diff(FavoriteTeams(after), FavoriteTeams(before))
  }

  function NewlyUnfollowed(before: User, after: User): seq<Id> {
    Diff(FavoriteTeams(before), FavoriteTeams(after))
  }

  /** `where("homeTeamId", "==", team)`, in store order. */
  function HomeMatches(fs: seq<Fixture>, team: Id): (r: seq<Fixture>)
    ensures forall f :: f in r <==> f in fs && f.homeTeamId == team
  {
    if fs == [] then []
    else if fs[0].homeTeamId == team then [fs[0]] + HomeMatches(fs[1..], team)
    else HomeMatches(fs[1..], team)
  }

  /** `where("awayTeamId", "==", team)`, in store order. */
  function AwayMatches(fs: seq<Fixture>, team: Id): (r: seq<Fixture>)
    ensures forall f :: f in r <==> f in fs && f.awayTeamId == team
  {
    if fs == [] then []
    else if fs[0].awayTeamId == team then [fs[0]] + AwayMatches(fs[1..], team)
    else AwayMatches(fs[1..], team)
  }

  /** One boost update to `b` per listed match. */
  function Updates(fs: seq<Fixture>, b: bool): (r: seq<Write>)
    ensures forall w :: w in r <==> exists f :: f in fs && w == UpdateBoost(f.id, b)
  {
    if fs == [] then [] else [UpdateBoost(fs[0].id, b)] + Updates(fs[1..], b)
  }

  /** Exactly one update per listed match, in the listed order. */
  lemma {:induction false} UpdatesOnePerMatch(fs: seq<Fixture>, b: bool)
    ensures |Updates(fs, b)| == |fs|
    ensures forall k :: 0 <= k < |fs| ==> Updates(fs, b)[k] == UpdateBoost(fs[k].id, b)
  {
    if fs != [] {
      UpdatesOnePerMatch(fs[1..], b);
    }
  }

  /** The writes for one team: its home matches, then its away matches. */
  function TeamWrites(fs: seq<Fixture>, team: Id, b: bool): (r: seq<Write>)
    ensures Uniform(r, b)
    ensures forall id :: Targets(r, id) <==> exists f :: f in fs && f.id == id && Involves(f, team)
  {
    Updates(HomeMatches(fs, team), b) + Updates(AwayMatches(fs, team), b)
  }

  /** The loop over newly followed teams. */
  function FollowWrites(fs: seq<Fixture>, teams: seq<Id>): (r: seq<Write>)
    ensures Uniform(r, true)
  {
    if teams == [] then []
    else TeamWrites(fs, teams[0], true) + FollowWrites(fs, teams[1..])
  }

  /** The follow writes reach exactly the matches of the newly followed teams. */
  lemma {:induction false} FollowWritesTargets(fs: seq<Fixture>, teams: seq<Id>, id: Id)
    ensures Targets(FollowWrites(fs, teams), id) <==>
            exists t, f :: t in teams && f in fs && f.id == id && Involves(f, t)
  {
    if teams != [] {
      var head := TeamWrites(fs, teams[0], true);
      var rest := FollowWrites(fs, teams[1..]);
      FollowWritesTargets(fs, teams[1..], id);
      TargetsConcat(head, rest, id);
      if Targets(head, id) {
        var f :| f in fs && f.id == id && Involves(f, teams[0]);
        assert teams[0] in teams;
      }
      if exists t, f :: t in teams && f in fs && f.id == id && Involves(f, t) {
        var t, f :| t in teams && f in fs && f.id == id && Involves(f, t);
        if t != teams[0] {
          assert t in teams[1..];
        }
      }
    }
  }

  /** The `array-contains` existence query: some user (the updated one included) still follows `team`. */
  predicate StillFollowed(users: seq<User>, team: Id) {
    exists u :: u in users && team in FavoriteTeams(u)
  }

  /** The loop over newly unfollowed teams: only teams left without followers are cleared. */
  function UnfollowWrites(fs: seq<Fixture>, users: seq<User>, teams: seq<Id>): (r: seq<Write>)
    ensures Uniform(r, false)
  {
    if teams == [] then []
    else
      (if StillFollowed(users, teams[0]) then [] else TeamWrites(fs, teams[0], false))
      + UnfollowWrites(fs, users, teams[1..])
  }

  /** The unfollow writes reach exactly the matches of the newly unfollowed teams nobody follows. */
  lemma {:induction false} UnfollowWritesTargets(fs: seq<Fixture>, users: seq<User>, teams: seq<Id>, id: Id)
    ensures Targets(UnfollowWrites(fs, users, teams), id) <==>
            exists t, f :: t in teams && !StillFollowed(users, t) && f in fs && f.id == id && Involves(f, t)
  {
    if teams != [] {
      var head := if StillFollowed(users, teams[0]) then [] else TeamWrites(fs, teams[0], false);
      var rest := UnfollowWrites(fs, users, teams[1..]);
      UnfollowWritesTargets(fs, users, teams[1..], id);
      TargetsConcat(head, rest, id);
      if Targets(head, id) {
        var f :| f in fs && f.id == id && Involves(f, teams[0]);
        assert teams[0] in teams;
      }
      if exists t, f :: t in teams && !StillFollowed(users, t) && f in fs && f.id == id && Involves(f, t) {
        var t, f :| t in teams && !StillFollowed(users, t) && f in fs && f.id == id && Involves(f, t);
        if t != teams[0] {
          assert t in teams[1..];
        }
      }
    }
  }

  /**
   * The batch of one invocation, read against store `s` (which already holds the
   * updated user): the follow writes first, then the unfollow writes.
   */
  function SyncWrites(before: User, after: User, s: Store): seq<Write> {
    var fs := Fixtures(s.matches);
    FollowWrites(fs, NewlyFollowed(before, after)) + UnfollowWrites(fs, s.users, NewlyUnfollowed(before, after))
  }

  /**
   * The newly followed teams are those in the new list and not the old, the newly
   * unfollowed ones the reverse; no team is both; an absent list counts as empty.
   */
  lemma {:induction false} FollowDiff(before: User, after: User)
    ensures forall t :: t in NewlyFollowed(before, after) <==> t in FavoriteTeams(after) && t !in FavoriteTeams(before)
    ensures forall t :: t in NewlyUnfollowed(before, after) <==> t in FavoriteTeams(before) && t !in FavoriteTeams(after)
    ensures forall t :: !(t in NewlyFollowed(before, after) && t in NewlyUnfollowed(before, after))
    ensures before.favoriteTeamIds.None? ==> NewlyUnfollowed(before, after) == []
    ensures after.favoriteTeamIds.None? ==> NewlyFollowed(before, after) == []
  {
  }

  /** The value the batch leaves on match `m`; None means the batch does not write it. */
  function BatchBoost(before: User, after: User, users: seq<User>, m: Match): Option<bool> {
    var f := FixtureOf(m);
    if exists t :: t in NewlyUnfollowed(before, after) && !StillFollowed(users, t) && Involves(f, t) then Some(false)
    else if exists t :: t in NewlyFollowed(before, after) && Involves(f, t) then Some(true)
    else None
  }

  /** Under unique document ids, a fixture with the id of `ms[i]` is that match's own. */
  lemma {:induction false} FixtureById(ms: seq<Match>, i: int, f: Fixture)
    requires UniqueMatchIds(ms) && 0 <= i < |ms|
    requires f in Fixtures(ms) && f.id == ms[i].id
    ensures f == FixtureOf(ms[i])
  {
    var fs := Fixtures(ms);
    var j :| 0 <= j < |fs| && fs[j] == f;
    assert fs[j] == FixtureOf(ms[j]);
    assert ms[j].id == ms[i].id;
    assert j == i;
  }

  /** Under unique ids, the follow writes reach a match exactly when it involves a newly followed team. */
  lemma {:induction false} FollowTargetsMatch(fs: seq<Fixture>, ms: seq<Match>, teams: seq<Id>, i: int)
    requires fs == Fixtures(ms) && UniqueMatchIds(ms) && 0 <= i < |ms|
    ensures Targets(FollowWrites(fs, teams), ms[i].id) <==> exists t :: t in teams && Involves(FixtureOf(ms[i]), t)
  {
    FollowWritesTargets(fs, teams, ms[i].id);
    assert FixtureOf(ms[i]) in fs;
    if Targets(FollowWrites(fs, teams), ms[i].id) {
      var t, f :| t in teams && f in fs && f.id == ms[i].id && Involves(f, t);
      FixtureById(ms, i, f);
    }
  }

  /** Under unique ids, the unfollow writes reach a match exactly when it involves an unfollowed team nobody follows. */
  lemma {:induction false} UnfollowTargetsMatch(fs: seq<Fixture>, ms: seq<Match>, users: seq<User>, teams: seq<Id>, i: int)
    requires fs == Fixtures(ms) && UniqueMatchIds(ms) && 0 <= i < |ms|
    ensures Targets(UnfollowWrites(fs, users, teams), ms[i].id)
            <==> exists t :: t in teams && !StillFollowed(users, t) && Involves(FixtureOf(ms[i]), t)
  {
    UnfollowWritesTargets(fs, users, teams, ms[i].id);
    assert FixtureOf(ms[i]) in fs;
    if Targets(UnfollowWrites(fs, users, teams), ms[i].id) {
      var t, f :| t in teams && !StillFollowed(users, t) && f in fs && f.id == ms[i].id && Involves(f, t);
      FixtureById(ms, i, f);
    }
  }

  /** For one match, the last boost write of the batch carries the value BatchBoost predicts. */
  lemma {:induction false} SyncLastBoost(before: User, after: User, s: Store, i: int)
    requires UniqueMatchIds(s.matches) && 0 <= i < |s.matches|
    ensures LastBoost(SyncWrites(before, after, s), s.matches[i].id) == BatchBoost(before, after, s.users, s.matches[i])
  {
    var fs := Fixtures(s.matches);
    var fw := FollowWrites(fs, NewlyFollowed(before, after));
    var uw := UnfollowWrites(fs, s.users, NewlyUnfollowed(before, after));
    var id := s.matches[i].id;
    LastBoostConcat(fw, uw, id);
    LastBoostUniform(fw, true, id);
    LastBoostUniform(uw, false, id);
    FollowTargetsMatch(fs, s.matches, NewlyFollowed(before, after), i);
    UnfollowTargetsMatch(fs, s.matches, s.users, NewlyUnfollowed(before, after), i);
  }

  /** The batch holds boost updates only. */
  lemma {:induction false} SyncWritesAreBoosts(before: User, after: User, s: Store)
    ensures DeletedIds(SyncWrites(before, after, s)) == {}
  {
    var fs := Fixtures(s.matches);
    var ws := SyncWrites(before, after, s);
    assert Uniform(FollowWrites(fs, NewlyFollowed(before, after)), true);
    assert Uniform(UnfollowWrites(fs, s.users, NewlyUnfollowed(before, after)), false);
    assert forall w :: w in ws ==> w.UpdateBoost?;
  }

  /**
   * The effect of the batch: a match involving a newly unfollowed team that nobody
   * follows any more ends with `followedBoost == false` (whatever its other team),
   * else a match involving a newly followed team ends with `true`, and every other
   * match is untouched. No other field and no other collection is written.
   */
  lemma {:induction false} SyncOutcome(before: User, after: User, s: Store)
    requires UniqueMatchIds(s.matches)
    ensures Apply(SyncWrites(before, after, s), s).settings == s.settings
    ensures Apply(SyncWrites(before, after, s), s).users == s.users
    ensures Apply(SyncWrites(before, after, s), s).attendance == s.attendance
    ensures |Apply(SyncWrites(before, after, s), s).matches| == |s.matches|
    ensures forall i :: 0 <= i < |s.matches| ==>
              Apply(SyncWrites(before, after, s), s).matches[i]
              == WithBoost(s.matches[i], BatchBoost(before, after, s.users, s.matches[i]))
  {
    var ws := SyncWrites(before, after, s);
    ApplyEffect(ws, s);
    SyncWritesAreBoosts(before, after, s);
    KeepNone(s.settings);
    forall i | 0 <= i < |s.matches|
      ensures LastBoost(ws, s.matches[i].id) == BatchBoost(before, after, s.users, s.matches[i])
    {
      SyncLastBoost(before, after, s, i);
    }
  }

  /** A change that leaves the followed set as it was writes nothing. */
  lemma {:induction false} SyncNoChange(before: User, after: User, s: Store)
    requires forall t :: t in FavoriteTeams(before) <==> t in FavoriteTeams(after)
    ensures SyncWrites(before, after, s) == []
    ensures Apply(SyncWrites(before, after, s), s) == s
  {
    assert NewlyFollowed(before, after) == [];
    assert NewlyUnfollowed(before, after) == [];
  }

  /** Committing a batch leaves every match's id and teams, and so every team query, as they were. */
  lemma {:induction false} ApplyKeepsFixtures(ws: seq<Write>, s: Store)
    ensures Fixtures(Apply(ws, s).matches) == Fixtures(s.matches)
    ensures Apply(ws, s).users == s.users
  {
    ApplyEffect(ws, s);
    var fs1 := Fixtures(Apply(ws, s).matches);
    var fs := Fixtures(s.matches);
    assert |fs1| == |fs|;
    forall i | 0 <= i < |fs|
      ensures fs1[i] == fs[i]
    {
    }
  }

  /**
   * Redelivery of the same update is harmless: run again on the store the first
   * run produced, the trigger computes the same batch, and committing it changes
   * nothing more.
   */
  lemma {:induction false} SyncIdempotent(before: User, after: User, s: Store)
    ensures SyncWrites(before, after, Apply(SyncWrites(before, after, s), s)) == SyncWrites(before, after, s)
    ensures Apply(SyncWrites(before, after, Apply(SyncWrites(before, after, s), s)),
                  Apply(SyncWrites(before, after, s), s))
            == Apply(SyncWrites(before, after, s), s)
  {
    var ws := SyncWrites(before, after, s);
    ApplyKeepsFixtures(ws, s);
    ApplyIdempotent(ws, s);
  }

  /**
   * The boost does not track "some user follows either team": a match of A (home)
   * against B (away) is cleared when its last B follower leaves, although A is still
   * followed, because the batch consults only the unfollowed team's followers.
   */
  lemma ClearedWhileOtherTeamFollowed()
    ensures var m := Match("m1", "A", "Team A", "B", "Team B", 0, StatusScheduled, Missing, Missing, Some(true));
            var before := User("u1", Some(["B"]), None, None);
            var after := User("u1", Some([]), None, None);
            var other := User("u2", Some(["A"]), None, None);
            var s := Store([m], [], [after, other], []);
            StillFollowed(s.users, "A")
            && |Apply(SyncWrites(before, after, s), s).matches| == 1
            && Apply(SyncWrites(before, after, s), s).matches[0].followedBoost == Some(false)
  {
    var m := Match("m1", "A", "Team A", "B", "Team B", 0, StatusScheduled, Missing, Missing, Some(true));
    var before := User("u1", Some(["B"]), None, None);
    var after := User("u1", Some([]), None, None);
    var other := User("u2", Some(["A"]), None, None);
    var s := Store([m], [], [after, other], []);
    assert other in s.users && "A" in FavoriteTeams(other);
    SyncOutcome(before, after, s);
    FollowDiff(before, after);
    assert "B" in NewlyUnfollowed(before, after);
    assert !StillFollowed(s.users, "B");
    assert Involves(FixtureOf(m), "B");
  }
}

=== FILE: kickoff.dfy ===
/**
 * `sendKickoffNotifications`: every five minutes, notify the opted-in users of
 * each scheduled match that kicks off between 30 and 35 minutes from now.
 */
module KickoffNotifier {
  import opened Wrappers
  import opened Schema
  import opened Delivery

  /** Lower edge of the window, `now + 30 min`. */
  const KickoffLeadMs: int := 30 * 60 * 1000
  /** Upper (excluded) edge of the window, `now + 35 min`. */
  const KickoffHorizonMs: int := 35 * 60 * 1000
  // The cron schedule "every fifth minute": one tick every five minutes.
  const CronIntervalMs: int := 5 * 60 * 1000

  /** The half-open window `[now + 30 min, now + 35 min)` of the kickoff query. */
  predicate InWindow(now: int, kickoff: int) {
    now + KickoffLeadMs <= kickoff < now + KickoffHorizonMs
  }

  /** The three `where` clauses of the schedules query. */
  predicate Selected(now: int, m: Match) {
    InWindow(now, m.kickoff) && m.status == StatusScheduled
  }

  /** The matches the query returns, in store order. */
  function SelectMatches(now: int, ms: seq<Match>): (r: seq<Match>)
    ensures |r| <= |ms|
    ensures forall m :: m in r <==> m in ms && Selected(now, m)
  {
    if ms == [] then []
    else if Selected(now, ms[0]) then [ms[0]] + SelectMatches(now, ms[1..])
    else SelectMatches(now, ms[1..])
  }

  function KickoffPayload(m: Match): Payload {
    Payload("Match Starting Soon!",
            m.homeTeamName + " vs " + m.awayTeamName + " kicks off in 30 minutes",
            KickoffKind, m.id)
  }

  /** The attempts for one match: its kickoff recipients, each sent its kickoff message. */
  function MatchAttempts(m: Match, s: Store, send: (string, Payload) -> bool): seq<Attempt> {
    FanOut(Recipients(s.settings, s.users, m.id, NotifyKickoff), KickoffPayload(m), send)
  }

  /** The loop over the selected matches, one fan-out after another. */
  function SendAll(ms: seq<Match>, s: Store, send: (string, Payload) -> bool): (r: seq<Attempt>)
    ensures forall a :: a in r <==> exists m :: m in ms && a in MatchAttempts(m, s, send)
  {
    if ms == [] then []
    else MatchAttempts(ms[0], s, send) + SendAll(ms[1..], s, send)
  }

  /** A single selected match contributes exactly its own fan-out. */
  lemma {:induction false} SendAllOne(m: Match, s: Store, send: (string, Payload) -> bool)
    ensures SendAll([m], s, send) == MatchAttempts(m, s, send)
  {
    assert [m][1..] == [];
  }

  /** Matches are handled one after another: the attempts for two match lists joined are the two attempt lists joined. */
  lemma {:induction false} SendAllConcat(a: seq<Match>, b: seq<Match>, s: Store, send: (string, Payload) -> bool)
    ensures SendAll(a + b, s, send) == SendAll(a, s, send) + SendAll(b, s, send)
  {
    if a == [] {
      assert a + b == b;
    } else {
      assert (a + b)[0] == a[0];
      assert (a + b)[1..] == a[1..] + b;
      SendAllConcat(a[1..], b, s, send);
    }
  }

  /** One run of the job at instant `now`. */
  function KickoffRun(now: int, s: Store, send: (string, Payload) -> bool): seq<Attempt> {
    SendAll(SelectMatches(now, s.matches), s, send)
  }

  /** The start of the n-th tick counted from `anchor`. */
  function TickStart(anchor: int, n: int): int {
    anchor + n * CronIntervalMs
  }

  /**
   * The window is as wide as the cron interval, so consecutive ticks' windows are
   * disjoint and adjacent: a kickoff at exactly `now + 35 min` belongs to the next tick.
   */
  lemma WindowsTile(now: int)
    ensures KickoffHorizonMs - KickoffLeadMs == CronIntervalMs
    ensures InWindow(now, now + KickoffLeadMs)
    ensures !InWindow(now, now + KickoffHorizonMs) && InWindow(now + CronIntervalMs, now + KickoffHorizonMs)
    ensures forall k :: !(InWindow(now, k) && InWindow(now + CronIntervalMs, k))
  {
  }

  /**
   * Every kickoff instant lies in the window of exactly one tick of any tick
   * sequence: with no tick missed, each scheduled match is selected once.
   */
  lemma ExactlyOneTick(anchor: int, kickoff: int) returns (n: int)
    ensures InWindow(TickStart(anchor, n), kickoff)
    ensures forall n' :: InWindow(TickStart(anchor, n'), kickoff) ==> n' == n
  {
    n := (kickoff - anchor - KickoffLeadMs) / CronIntervalMs;
  }

  /** Where an attempt of the run comes from: a selected match and an eligible settings row. */
  lemma {:induction false} AttemptOrigin(now: int, s: Store, send: (string, Payload) -> bool, a: Attempt) returns (m: Match, st: NotificationSetting)
    requires a in KickoffRun(now, s, send)
    ensures m in s.matches && Selected(now, m) && a.payload == KickoffPayload(m)
    ensures st in s.settings && Eligible(st, s.users, m.id, NotifyKickoff)
    ensures a.userId == st.userId && Some(a.token) == TokenOf(s.users, st.userId)
  {
    m :| m in SelectMatches(now, s.matches) && a in MatchAttempts(m, s, send);
    var rs := Recipients(s.settings, s.users, m.id, NotifyKickoff);
    FanOutMembership(rs, KickoffPayload(m), send, a);
    var rc :| rc in rs && a == Attempt(rc.userId, rc.token, KickoffPayload(m), send(rc.token, KickoffPayload(m)));
    st :| st in s.settings && Eligible(st, s.users, m.id, NotifyKickoff) && rc == RecipientOf(st, s.users);
  }

  /** A selected match and an eligible settings row always produce their attempt. */
  lemma {:induction false} AttemptMade(now: int, s: Store, send: (string, Payload) -> bool, m: Match, st: NotificationSetting)
    requires m in s.matches && Selected(now, m)
    requires st in s.settings && Eligible(st, s.users, m.id, NotifyKickoff)
    ensures Attempt(st.userId, TokenOf(s.users, st.userId).value, KickoffPayload(m),
                    send(TokenOf(s.users, st.userId).value, KickoffPayload(m))) in KickoffRun(now, s, send)
  {
    var rs := Recipients(s.settings, s.users, m.id, NotifyKickoff);
    var rc := RecipientOf(st, s.users);
    var a := Attempt(rc.userId, rc.token, KickoffPayload(m), send(rc.token, KickoffPayload(m)));
    FanOutMembership(rs, KickoffPayload(m), send, a);
    assert m in SelectMatches(now, s.matches);
  }

  /**
   * The run sends to exactly the (match, user, token) triples where the match is a
   * selected one, a settings row of that match opts the user into kickoff
   * notifications, and the user has a non-empty token.
   */
  lemma {:induction false} KickoffRunAttempts(now: int, s: Store, send: (string, Payload) -> bool, matchId: Id, userId: Id, token: string)
    ensures (exists a :: a in KickoffRun(now, s, send) && a.payload.matchId == matchId
                         && a.userId == userId && a.token == token)
            <==> (exists m :: m in s.matches && m.id == matchId && Selected(now, m))
                 && (exists st :: st in s.settings && st.matchId == matchId && st.notifyKickoff && st.userId == userId)
                 && TokenOf(s.users, userId) == Some(token)
  {
    var run := KickoffRun(now, s, send);
    if exists a :: a in run && a.payload.matchId == matchId && a.userId == userId && a.token == token {
      var a :| a in run && a.payload.matchId == matchId && a.userId == userId && a.token == token;
      var m, st := AttemptOrigin(now, s, send, a);
      assert st.matchId == matchId && st.notifyKickoff && st.userId == userId;
    }
    if && (exists m :: m in s.matches && m.id == matchId && Selected(now, m))
       && (exists st :: st in s.settings && st.matchId == matchId && st.notifyKickoff && st.userId == userId)
       && TokenOf(s.users, userId) == Some(token)
    {
      var m :| m in s.matches && m.id == matchId && Selected(now, m);
      var st :| st in s.settings && st.matchId == matchId && st.notifyKickoff && st.userId == userId;
      AttemptMade(now, s, send, m, st);
    }
  }

  /** Every message of the run is the kickoff message of a selected match, naming both its teams. */
  lemma {:induction false} KickoffRunMessages(now: int, s: Store, send: (string, Payload) -> bool)
    ensures forall a :: a in KickoffRun(now, s, send) ==>
              exists m :: m in s.matches && Selected(now, m) && a.payload.matchId == m.id
                          && a.payload.title == "Match Starting Soon!"
                          && a.payload.body == m.homeTeamName + " vs " + m.awayTeamName + " kicks off in 30 minutes"
  {
    forall a | a in KickoffRun(now, s, send)
      ensures exists m :: m in s.matches && Selected(now, m) && a.payload.matchId == m.id
                          && a.payload.title == "Match Starting Soon!"
                          && a.payload.body == m.homeTeamName + " vs " + m.awayTeamName + " kicks off in 30 minutes"
    {
      var m, st := AttemptOrigin(now, s, send, a);
    }
  }
}

=== FILE: render.dfy ===
/**
 * How a JavaScript template literal turns a score into text, used by the
 * result notification body: integers in decimal, `undefined` and `null`
 * by name.
 */
module Render {
  import opened Wrappers
  import opened Schema

  predicate IsDigit(c: char) {
    '0' <= c <= '9'
  }

  predicate AllDigits(s: string) {
    forall i :: 0 <= i < |s| ==> IsDigit(s[i])
  }

  function DigitChar(d: nat): (c: char)
    requires d < 10
    ensures IsDigit(c)
  {
    (('0' as int) + d) as char
  }

  /** Decimal text of a natural number, most significant digit first, no leading zeros. */
  function NatToString(n: nat): (s: string)
    ensures |s| > 0 && AllDigits(s)
    ensures s[0] == '0' ==> n == 0
    decreases n
  {
    if n < 10 then [DigitChar(n)]
    else NatToString(n / 10) + [DigitChar(n % 10)]
  }

  /** The number a string of decimal digits denotes. */
  function DigitsValue(s: string): nat
    requires AllDigits(s)
  {
    if s == [] then 0
    else DigitsValue(s[..|s| - 1]) * 10 + (s[|s| - 1] as int - '0' as int)
  }

  /** Reading back the decimal text of `n` gives `n`. */
  lemma {:induction false} DigitsValueOfNatToString(n: nat)
    ensures DigitsValue(NatToString(n)) == n
    decreases n
  {
    if n >= 10 {
      var s := NatToString(n);
      DigitsValueOfNatToString(n / 10);
      assert s[..|s| - 1] == NatToString(n / 10);
    }
  }

  /** `String(i)` for an integer-valued JavaScript number below 10^21 in magnitude (larger ones print in exponent form). */
  function IntToString(i: int): string {
    if i < 0 then "-" + NatToString(-i) else NatToString(i)
  }

  /** Parses an optionally signed decimal integer. */
  function ParseInt(s: string): Option<int> {
    if |s| > 1 && s[0] == '-' && AllDigits(s[1..]) then Some(0 - DigitsValue(s[1..]) as int)
    else if |s| > 0 && AllDigits(s) then Some(DigitsValue(s) as int)
    else None
  }

  /** The text of an integer determines it: parsing it back gives the integer. */
  lemma IntToStringRoundTrip(i: int)
    ensures ParseInt(IntToString(i)) == Some(i)
  {
    if i < 0 {
      var s := IntToString(i);
      assert s[1..] == NatToString(-i);
      DigitsValueOfNatToString(-i);
    } else {
      DigitsValueOfNatToString(i);
    }
  }

  /** `${score}` in a template literal. */
  function ScoreText(sc: Score): (t: string)
    ensures sc.Value? ==> ParseInt(t) == Some(sc.n)
    ensures sc.Missing? ==> t == "undefined"
    ensures sc.Null? ==> t == "null"
  {
    match sc
    case Missing => "undefined"
    case Null => "null"
    case Value(n) => IntToStringRoundTrip(n); IntToString(n)
  }
}

=== FILE: result.dfy ===
/**
 * `onMatchFinished`: on an update of a `schedules` document, notify the users who
 * opted into result notifications, but only on the update that finishes the match.
 */
module ResultNotifier {
  import opened Wrappers
  import opened Schema
  import opened Render
  import opened Delivery

  /** The edge test: the status was not "finished" before and is "finished" after. */
  predicate JustFinished(before: Match, after: Match) {
    before.status != StatusFinished && after.status == StatusFinished
  }

  /** `"{home} {homeScore} - {awayScore} {away}"`, read from the updated document. */
  function ResultPayload(after: Match): Payload {
    Payload("Match Finished!",
            after.homeTeamName + " " + ScoreText(after.homeScore) + " - "
              + ScoreText(after.awayScore) + " " + after.awayTeamName,
            ResultKind, after.id)
  }

  /**
   * One invocation of the trigger for the update `before` -> `after` of the document
   * `after.id`: nothing unless the update finishes the match, otherwise the result
   * message to every result recipient of that match.
   */
  function ResultRun(before: Match, after: Match, s: Store, send: (string, Payload) -> bool): (r: seq<Attempt>)
    ensures !JustFinished(before, after) ==> r == []
    ensures before.status == StatusFinished ==> r == []
    ensures forall a :: a in r ==> a.payload == ResultPayload(after)
  {
    if JustFinished(before, after) then
      FanOut(Recipients(s.settings, s.users, after.id, NotifyResult), ResultPayload(after), send)
    else []
  }

  /**
   * The invocation sends to user `userId` with `token` exactly when the update is the
   * finishing edge, a settings row of the match opts the user into results, and the
   * user's token is `token`; a repeated delivery of an update that is already
   * finished sends nothing.
   */
  lemma {:induction false} ResultRunAttempts(before: Match, after: Match, s: Store, send: (string, Payload) -> bool,
                          userId: Id, token: string)
    ensures (exists a :: a in ResultRun(before, after, s, send) && a.userId == userId && a.token == token)
            <==> JustFinished(before, after)
                 && (exists st :: st in s.settings && st.matchId == after.id && st.notifyResult && st.userId == userId)
                 && TokenOf(s.users, userId) == Some(token)
  {
    var rs := Recipients(s.settings, s.users, after.id, NotifyResult);
    var p := ResultPayload(after);
    if exists a :: a in ResultRun(before, after, s, send) && a.userId == userId && a.token == token {
      var a :| a in ResultRun(before, after, s, send) && a.userId == userId && a.token == token;
      FanOutMembership(rs, p, send, a);
      var rc :| rc in rs && a == Attempt(rc.userId, rc.token, p, send(rc.token, p));
      var st :| st in s.settings && Eligible(st, s.users, after.id, NotifyResult) && rc == RecipientOf(st, s.users);
      assert st.userId == userId;
    }
    if && JustFinished(before, after)
       && (exists st :: st in s.settings && st.matchId == after.id && st.notifyResult && st.userId == userId)
       && TokenOf(s.users, userId) == Some(token)
    {
      var st :| st in s.settings && st.matchId == after.id && st.notifyResult && st.userId == userId;
      assert Eligible(st, s.users, after.id, NotifyResult);
      var rc := RecipientOf(st, s.users);
      FanOutMembership(rs, p, send, Attempt(rc.userId, rc.token, p, send(rc.token, p)));
    }
  }

  /** The message body names both teams and carries both scores as they render. */
  lemma ResultBodyScores(after: Match)
    requires after.homeScore.Value? && after.awayScore.Value?
    ensures exists h, a :: ResultPayload(after).body
                           == after.homeTeamName + " " + h + " - " + a + " " + after.awayTeamName
                           && ParseInt(h) == Some(after.homeScore.n) && ParseInt(a) == Some(after.awayScore.n)
  {
    var h := ScoreText(after.homeScore);
    var a := ScoreText(after.awayScore);
    assert ResultPayload(after).body == after.homeTeamName + " " + h + " - " + a + " " + after.awayTeamName;
  }
}

=== FILE: retention.dfy ===
/**
 * `cleanupOldNotifications`: weekly, delete every notification setting whose match
 * kicked off more than seven days ago, in one batch.
 */
module RetentionSweep {
  import opened Wrappers
  import opened Schema
  import opened Batch

  /** Seven days, the span `setDate(getDate() - 7)` steps back (daylight saving is not modelled). */
  const RetentionMs: int := 7 * DayMs

  /** `where("kickoff", "<", oneWeekAgo)`: strictly before the cutoff. */
  predicate IsOld(now: int, m: Match) {
    m.kickoff < now - RetentionMs
  }

  /** The ids of the old matches, in store order. */
  function OldMatchIds(now: int, ms: seq<Match>): (r: seq<Id>)
    ensures forall id :: id in r <==> exists m :: m in ms && m.id == id && IsOld(now, m)
    ensures (forall m :: m in ms ==> !IsOld(now, m)) ==> r == []
  {
    if ms == [] then []
    else if IsOld(now, ms[0]) then [ms[0].id] + OldMatchIds(now, ms[1..])
    else OldMatchIds(now, ms[1..])
  }

  /** One delete per setting of match `matchId`, in settings order. */
  function DeletesFor(ss: seq<NotificationSetting>, matchId: Id): (r: seq<Write>)
    ensures forall w :: w in r <==> exists st :: st in ss && st.matchId == matchId && w == DeleteSetting(st.id)
    ensures (forall st :: st in ss ==> st.matchId != matchId) ==> r == []
  {
    if ss == [] then []
    else if ss[0].matchId == matchId then [DeleteSetting(ss[0].id)] + DeletesFor(ss[1..], matchId)
    else DeletesFor(ss[1..], matchId)
  }

  /** One setting yields one delete when it belongs to the match and none otherwise. */
  lemma {:induction false} DeletesForOne(st: NotificationSetting, matchId: Id)
    ensures DeletesFor([st], matchId) == if st.matchId == matchId then [DeleteSetting(st.id)] else []
  {
    assert [st][1..] == [];
  }

  /** Settings are handled one by one: the deletes for two lists joined are the two delete lists joined. */
  lemma {:induction false} DeletesForConcat(a: seq<NotificationSetting>, b: seq<NotificationSetting>, matchId: Id)
    ensures DeletesFor(a + b, matchId) == DeletesFor(a, matchId) + DeletesFor(b, matchId)
  {
    if a == [] {
      assert a + b == b;
    } else {
      assert (a + b)[0] == a[0];
      assert (a + b)[1..] == a[1..] + b;
      DeletesForConcat(a[1..], b, matchId);
    }
  }

  /** The loop over the old match ids. */
  function DeletesForAll(ss: seq<NotificationSetting>, ids: seq<Id>): (r: seq<Write>)
    ensures forall w :: w in r <==> exists st :: st in ss && st.matchId in ids && w == DeleteSetting(st.id)
    ensures (forall st :: st in ss ==> st.matchId !in ids) ==> r == []
  {
    if ids == [] then []
    else DeletesFor(ss, ids[0]) + DeletesForAll(ss, ids[1..])
  }

  /** The batch of one run; when there are no old matches the run stops before building one. */
  function SweepWrites(now: int, s: Store): seq<Write> {
    var ids := OldMatchIds(now, s.matches);
    if |ids| == 0 then [] else DeletesForAll(s.settings, ids)
  }

  /** The setting belongs to a match that kicked off before the cutoff. */
  predicate Stale(now: int, ms: seq<Match>, st: NotificationSetting) {
    exists m :: m in ms && m.id == st.matchId && IsOld(now, m)
  }

  /** The settings that survive the sweep, in their order: those of recent or unknown matches. */
  function Fresh(now: int, ms: seq<Match>, ss: seq<NotificationSetting>): (r: seq<NotificationSetting>)
    ensures forall st :: st in r <==> st in ss && !Stale(now, ms, st)
  {
    if ss == [] then []
    else if Stale(now, ms, ss[0]) then Fresh(now, ms, ss[1..])
    else [ss[0]] + Fresh(now, ms, ss[1..])
  }

  /** The batch deletes a setting id exactly when some stale setting carries it, and writes no boost. */
  lemma {:induction false} SweepWritesSpec(now: int, s: Store)
    ensures forall w :: w in SweepWrites(now, s) ==> w.DeleteSetting?
    ensures forall id :: id in DeletedIds(SweepWrites(now, s)) <==>
              exists st :: st in s.settings && st.id == id && Stale(now, s.matches, st)
  {
    var ids := OldMatchIds(now, s.matches);
    forall id
      ensures id in DeletedIds(SweepWrites(now, s)) <==>
              exists st :: st in s.settings && st.id == id && Stale(now, s.matches, st)
    {
      if exists st :: st in s.settings && st.id == id && Stale(now, s.matches, st) {
        var st :| st in s.settings && st.id == id && Stale(now, s.matches, st);
        assert st.matchId in ids;
        assert DeleteSetting(st.id) in DeletesForAll(s.settings, ids);
      }
    }
  }

  /** Under unique ids, a setting is determined by its id. */
  lemma {:induction false} SettingById(ss: seq<NotificationSetting>, i: int, st: NotificationSetting)
    requires UniqueSettingIds(ss) && 0 <= i < |ss|
    requires st in ss && st.id == ss[i].id
    ensures st == ss[i]
  {
    var k :| 0 <= k < |ss| && ss[k] == st;
    assert k == i;
  }

  /** Under unique ids, deleting the ids of the stale settings keeps exactly the fresh ones. */
  lemma {:induction false} KeepIsFresh(now: int, ms: seq<Match>, ss: seq<NotificationSetting>, ids: set<Id>)
    requires UniqueSettingIds(ss)
    requires forall id :: id in ids <==> exists st :: st in ss && st.id == id && Stale(now, ms, st)
    ensures Keep(ss, ids) == Fresh(now, ms, ss)
  {
    if ss != [] {
      var rest := ss[1..];
      var restIds := set st | st in rest && Stale(now, ms, st) :: st.id;
      assert UniqueSettingIds(rest);
      KeepIsFresh(now, ms, rest, restIds);
      forall st | st in rest
        ensures st.id in ids <==> st.id in restIds
      {
        var j :| 0 <= j < |rest| && rest[j] == st;
        assert ss[j + 1] == st;
        if st.id in ids {
          var st' :| st' in ss && st'.id == st.id && Stale(now, ms, st');
          SettingById(ss, j + 1, st');
        }
      }
      KeepAgree(rest, ids, restIds);
      if ss[0].id in ids {
        var st' :| st' in ss && st'.id == ss[0].id && Stale(now, ms, st');
        SettingById(ss, 0, st');
      }
    }
  }

  /** Keep depends only on which ids of the listed settings are deleted. */
  lemma {:induction false} KeepAgree(ss: seq<NotificationSetting>, a: set<Id>, b: set<Id>)
    requires forall st :: st in ss ==> (st.id in a <==> st.id in b)
    ensures Keep(ss, a) == Keep(ss, b)
  {
    if ss != [] {
      KeepAgree(ss[1..], a, b);
    }
  }

  /**
   * The sweep deletes exactly the settings of matches that kicked off more than seven
   * days before `now`; every other setting stays, in order, and nothing else changes.
   */
  lemma {:induction false} SweepOutcome(now: int, s: Store)
    requires UniqueSettingIds(s.settings)
    ensures Apply(SweepWrites(now, s), s) == s.(settings := Fresh(now, s.matches, s.settings))
  {
    var ws := SweepWrites(now, s);
    var s1 := Apply(ws, s);
    ApplyEffect(ws, s);
    SweepWritesSpec(now, s);
    KeepIsFresh(now, s.matches, s.settings, DeletedIds(ws));
    forall i | 0 <= i < |s.matches|
      ensures s1.matches[i] == s.matches[i]
    {
      assert LastBoost(ws, s.matches[i].id).None?;
    }
    assert s1.matches == s.matches;
  }

  /** A second run right after the first finds nothing left to delete. */
  lemma {:induction false} SweepIdempotent(now: int, s: Store)
    ensures SweepWrites(now, Apply(SweepWrites(now, s), s)) == []
  {
    var ws := SweepWrites(now, s);
    var s1 := Apply(ws, s);
    ApplyEffect(ws, s);
    SweepWritesSpec(now, s);
    forall i | 0 <= i < |s.matches|
      ensures s1.matches[i] == s.matches[i]
    {
      assert LastBoost(ws, s.matches[i].id).None?;
    }
    assert s1.matches == s.matches;
    var ids := OldMatchIds(now, s1.matches);
    forall st | st in s1.settings
      ensures st.matchId !in ids
    {
      assert st in s.settings && st.id !in DeletedIds(ws);
      assert !Stale(now, s.matches, st);
    }
  }

  /** With no match older than the cutoff, the run writes nothing. */
  lemma {:induction false} NoOldMatchesNoOp(now: int, s: Store)
    requires forall m :: m in s.matches ==> !IsOld(now, m)
    ensures SweepWrites(now, s) == []
  {
  }
}

=== FILE: schema.dfy ===
/**
 * The four Firestore collections the Cloud Functions read and write
 * (`schedules`, `notification_settings`, `users`, `attendance_records`),
 * as immutable values. A collection is a sequence of documents in the order
 * a query returns them; instants are integers in milliseconds.
 */
module Schema {
  import opened Wrappers

  /** A Firestore document id (match, setting, user) or a team id. */
  type Id = string

  const MinuteMs: int := 60 * 1000
  const DayMs: int := 24 * 60 * MinuteMs

  const StatusScheduled: string := "scheduled"
  const StatusFinished: string := "finished"

  /** A numeric document field as JavaScript reads it: absent (`undefined`), `null`, or a number. */
  datatype Score = Missing | Null | Value(n: int)

  /**
   * A `schedules` document. Only the fields the functions read or write are kept
   * (league, logos, stadium and broadcast are carried by the document but never inspected).
   * `followedBoost` is absent until the follow-sync trigger first writes it.
   */
  datatype Match = Match(
    id: Id,
    homeTeamId: Id,
    homeTeamName: string,
    awayTeamId: Id,
    awayTeamName: string,
    kickoff: int,
    status: string,
    homeScore: Score,
    awayScore: Score,
    followedBoost: Option<bool>)

  /** A `notification_settings` document: one user's opt-ins for one match. */
  datatype NotificationSetting = NotificationSetting(
    id: Id,
    matchId: Id,
    userId: Id,
    notifyKickoff: bool,
    notifyResult: bool)

  /** A `users` document; `favoriteTeamIds` and `fcmToken` may be absent. */
  datatype User = User(
    id: Id,
    favoriteTeamIds: Option<seq<Id>>,
    fcmToken: Option<string>,
    updatedAt: Option<int>)

  /** An `attendance_records` document. */
  datatype AttendanceRecord = AttendanceRecord(
    id: Id,
    userId: Id,
    league: string,
    stadium: string,
    homeScore: Score,
    awayScore: Score)

  /** A snapshot of the database. */
  datatype Store = Store(
    matches: seq<Match>,
    settings: seq<NotificationSetting>,
    users: seq<User>,
    attendance: seq<AttendanceRecord>)

  /** The error codes a callable endpoint throws. */
  datatype CallError =
    | Unauthenticated   // no caller identity
    | InvalidArgument   // a required argument is missing or empty
    | Internal          // a store call rejects, e.g. `update()` of a missing document

  /** The followed teams of a user: `favoriteTeamIds || []`, so an absent field reads as the empty list. */
  function FavoriteTeams(u: User): seq<Id> {
    if u.favoriteTeamIds.Some? then u.favoriteTeamIds.value else []
  }

  /** Document ids are keys: no two `schedules` documents share one. */
  ghost predicate UniqueMatchIds(ms: seq<Match>) {
    forall i, j :: 0 <= i < j < |ms| ==> ms[i].id != ms[j].id
  }

  /** Document ids are keys: no two `notification_settings` documents share one. */
  ghost predicate UniqueSettingIds(ss: seq<NotificationSetting>) {
    forall i, j :: 0 <= i < j < |ss| ==> ss[i].id != ss[j].id
  }

  /** Point lookup `users/{id}`: the document with that id, if there is one. */
  function FindUser(users: seq<User>, id: Id): (r: Option<User>)
    ensures r.Some? <==> exists u :: u in users && u.id == id
    ensures r.Some? ==> r.value in users && r.value.id == id
  {
    if users == [] then None
    else if users[0].id == id then Some(users[0])
    else FindUser(users[1..], id)
  }
}

=== FILE: stats.dfy ===
/**
 * `getAttendanceStats`: a callable endpoint that tallies the caller's attendance
 * records: how many, per stadium, per league, and wins, draws and losses by the
 * home/away score.
 */
module AttendanceStats {
  import opened Wrappers
  import opened Schema

  datatype Stats = Stats(
    totalMatches: nat,
    wins: nat,
    draws: nat,
    losses: nat,
    stadiumVisits: map<string, nat>,
    leagueCount: map<string, nat>)

  /** How one record counts in the win/draw/loss tally. */
  datatype Verdict = Win | Draw | Loss | Untallied

  /**
   * The tally as `index.ts` writes it: a record passes the `!== null` test unless a
   * score is `null`, so an ABSENT score passes; a comparison with `undefined` is
   * false both ways, so such a record lands in the draw branch.
   */
  function TallyAsWritten(r: AttendanceRecord): (v: Verdict)
    ensures v == Untallied <==> r.homeScore.Null? || r.awayScore.Null?
    ensures v == Win <==> r.homeScore.Value? && r.awayScore.Value? && r.homeScore.n > r.awayScore.n
    ensures v == Loss <==> r.homeScore.Value? && r.awayScore.Value? && r.homeScore.n < r.awayScore.n
  {
    if r.homeScore.Null? || r.awayScore.Null? then Untallied
    else if r.homeScore.Value? && r.awayScore.Value? && r.homeScore.n > r.awayScore.n then Win
    else if r.homeScore.Value? && r.awayScore.Value? && r.homeScore.n < r.awayScore.n then Loss
    else Draw
  }

  /** Both scores are present as numbers. */
  predicate Scored(r: AttendanceRecord) {
    r.homeScore.Value? && r.awayScore.Value?
  }

  /** Some score is absent and neither is `null`: the records the two tallies disagree on. */
  predicate AbsentNotNull(r: AttendanceRecord) {
    !r.homeScore.Null? && !r.awayScore.Null? && (r.homeScore.Missing? || r.awayScore.Missing?)
  }

  /** The tally as intended: only records with both scores count, compared home against away. */
  function Tally(r: AttendanceRecord): (v: Verdict)
    ensures v == Untallied <==> !Scored(r)
    ensures v == Win <==> Scored(r) && r.homeScore.n > r.awayScore.n
    ensures v == Draw <==> Scored(r) && r.homeScore.n == r.awayScore.n
    ensures v == Loss <==> Scored(r) && r.homeScore.n < r.awayScore.n
  {
    if !Scored(r) then Untallied
    else if r.homeScore.n > r.awayScore.n then Win
    else if r.homeScore.n < r.awayScore.n then Loss
    else Draw
  }

  /**
   * The two tallies differ exactly on records with an absent score and no `null`
   * one, which the written code counts as draws.
   */
  lemma AbsentScoreTalliedAsDraw(r: AttendanceRecord)
    ensures TallyAsWritten(r) != Tally(r) <==> AbsentNotNull(r)
    ensures TallyAsWritten(r) != Tally(r) ==> TallyAsWritten(r) == Draw && Tally(r) == Untallied
  {
  }

  /** `(m[k] || 0) + 1`. */
  function Bump(m: map<string, nat>, k: string): map<string, nat> {
    m[k := Lookup(m, k) + 1]
  }

  function Lookup(m: map<string, nat>, k: string): nat {
    if k in m then m[k] else 0
  }

  /** One iteration of the loop over the records, with the record's verdict `v`. */
  function StepBy(st: Stats, r: AttendanceRecord, v: Verdict): Stats {
    var st' := st.(stadiumVisits := Bump(st.stadiumVisits, r.stadium),
                   leagueCount := Bump(st.leagueCount, r.league));
    match v
    case Win => st'.(wins := st'.wins + 1)
    case Draw => st'.(draws := st'.draws + 1)
    case Loss => st'.(losses := st'.losses + 1)
    case Untallied => st'
  }

  /** One iteration, tallied as intended. */
  function Step(st: Stats, r: AttendanceRecord): Stats {
    StepBy(st, r, Tally(r))
  }

  /** The loop, first record to last, from the initial `stats` object. */
  function Fold(init: Stats, rs: seq<AttendanceRecord>): (r: Stats)
    ensures r.totalMatches == init.totalMatches
    decreases |rs|
  {
    if rs == [] then init else Step(Fold(init, rs[..|rs| - 1]), rs[|rs| - 1])
  }

  /** `totalMatches` is set to the number of records up front; every tally starts at zero. */
  function Aggregate(rs: seq<AttendanceRecord>): Stats {
    Fold(Stats(|rs|, 0, 0, 0, map[], map[]), rs)
  }

  /** The query `where("userId", "==", uid)`. */
  function RecordsOf(rs: seq<AttendanceRecord>, uid: Id): (r: seq<AttendanceRecord>)
    ensures forall a :: a in r <==> a in rs && a.userId == uid
  {
    if rs == [] then []
    else if rs[0].userId == uid then [rs[0]] + RecordsOf(rs[1..], uid)
    else RecordsOf(rs[1..], uid)
  }

  /** One call: unauthenticated callers are refused, others get the tally of their own records. */
  function GetAttendanceStats(auth: Option<Id>, s: Store): (r: Result<Stats, CallError>)
    ensures r.Failure? <==> auth.None?
    ensures r.Failure? ==> r.error == Unauthenticated
    ensures r.Success? ==> r.value.totalMatches == |RecordsOf(s.attendance, auth.value)|
  {
    if auth.None? then Failure(Unauthenticated)
    else Success(Aggregate(RecordsOf(s.attendance, auth.value)))
  }

  // The endpoint as written, where a record with an absent score is a draw.

  function FoldAsWritten(init: Stats, rs: seq<AttendanceRecord>): (r: Stats)
    ensures r.totalMatches == init.totalMatches
    decreases |rs|
  {
    if rs == [] then init else StepBy(FoldAsWritten(init, rs[..|rs| - 1]), rs[|rs| - 1], TallyAsWritten(rs[|rs| - 1]))
  }

  function AggregateAsWritten(rs: seq<AttendanceRecord>): Stats {
    FoldAsWritten(Stats(|rs|, 0, 0, 0, map[], map[]), rs)
  }

  function GetAttendanceStatsAsWritten(auth: Option<Id>, s: Store): (r: Result<Stats, CallError>)
    ensures r.Failure? <==> auth.None?
    ensures r.Failure? ==> r.error == Unauthenticated
    ensures r.Success? ==> r.value.totalMatches == |RecordsOf(s.attendance, auth.value)|
  {
    if auth.None? then Failure(Unauthenticated)
    else Success(AggregateAsWritten(RecordsOf(s.attendance, auth.value)))
  }

  /**
   * The written loop and the intended one agree on everything except draws, which the
   * written loop inflates by the records with an absent score and no null one.
   */
  lemma {:induction false} FoldAsWrittenDraws(init: Stats, rs: seq<AttendanceRecord>)
    ensures FoldAsWritten(init, rs) == Fold(init, rs).(draws := Fold(init, rs).draws + CountWhere(rs, AbsentNotNull))
    decreases |rs|
  {
    if rs != [] {
      var front, last := rs[..|rs| - 1], rs[|rs| - 1];
      FoldAsWrittenDraws(init, front);
      AbsentScoreTalliedAsDraw(last);
    }
  }

  /**
   * The endpoint as written answers the same calls as the corrected one, with the
   * same report except for the draw count, which is higher by the caller's records
   * that have an absent score and no null one.
   */
  lemma {:induction false} AsWrittenEndpointDraws(auth: Option<Id>, s: Store)
    ensures GetAttendanceStatsAsWritten(auth, s).Success? <==> GetAttendanceStats(auth, s).Success?
    ensures GetAttendanceStats(auth, s).Success? ==>
              var c := GetAttendanceStats(auth, s).value;
              GetAttendanceStatsAsWritten(auth, s).value
              == c.(draws := c.draws + CountWhere(RecordsOf(s.attendance, auth.value), AbsentNotNull))
  {
    if auth.Some? {
      var rs := RecordsOf(s.attendance, auth.value);
      FoldAsWrittenDraws(Stats(|rs|, 0, 0, 0, map[], map[]), rs);
    }
  }

  /** One record without score fields: the written endpoint reports a draw, the corrected one none. */
  lemma AbsentRecordExample()
    ensures var s := Store([], [], [], [AttendanceRecord("r", "u", "L", "S", Missing, Missing)]);
            && GetAttendanceStatsAsWritten(Some("u"), s).Success?
            && GetAttendanceStatsAsWritten(Some("u"), s).value.draws == 1
            && GetAttendanceStats(Some("u"), s).value.draws == 0
  {
    var rec := AttendanceRecord("r", "u", "L", "S", Missing, Missing);
    var s := Store([], [], [], [rec]);
    assert [rec][1..] == [];
    assert RecordsOf(s.attendance, "u") == [rec];
    assert [rec][..0] == [];
  }

  // Reference counts, defined record by record and independently of the loop.

  function StadiumCount(rs: seq<AttendanceRecord>, k: string): nat {
    if rs == [] then 0 else StadiumCount(rs[..|rs| - 1], k) + (if rs[|rs| - 1].stadium == k then 1 else 0)
  }

  function LeagueCount(rs: seq<AttendanceRecord>, k: string): nat {
    if rs == [] then 0 else LeagueCount(rs[..|rs| - 1], k) + (if rs[|rs| - 1].league == k then 1 else 0)
  }

  /** The number of records satisfying `p`. */
  function CountWhere(rs: seq<AttendanceRecord>, p: AttendanceRecord -> bool): nat {
    if rs == [] then 0 else CountWhere(rs[..|rs| - 1], p) + (if p(rs[|rs| - 1]) then 1 else 0)
  }

  predicate HomeWin(r: AttendanceRecord) {
    Scored(r) && r.homeScore.n > r.awayScore.n
  }

  predicate Level(r: AttendanceRecord) {
    Scored(r) && r.homeScore.n == r.awayScore.n
  }

  predicate AwayWin(r: AttendanceRecord) {
    Scored(r) && r.homeScore.n < r.awayScore.n
  }

  // The sum of a map's values.

  ghost function SumOver(m: map<string, nat>, keys: set<string>): nat
    requires keys <= m.Keys
    decreases keys
  {
    if keys == {} then 0
    else
      var k :| k in keys;
      m[k] + SumOver(m, keys - {k})
  }

  ghost function MapSum(m: map<string, nat>): nat {
    SumOver(m, m.Keys)
  }

  /** The sum does not depend on which key is taken out first. */
  lemma {:induction false} SumOverRemove(m: map<string, nat>, keys: set<string>, k: string)
    requires keys <= m.Keys && k in keys
    ensures SumOver(m, keys) == m[k] + SumOver(m, keys - {k})
    decreases keys
  {
    var k' :| k' in keys && SumOver(m, keys) == m[k'] + SumOver(m, keys - {k'});
    if k' != k {
      SumOverRemove(m, keys - {k'}, k);
      SumOverRemove(m, keys - {k}, k');
      assert keys - {k'} - {k} == keys - {k} - {k'};
    }
  }

  /** Two maps that agree on `keys` sum the same over them. */
  lemma {:induction false} SumOverAgree(m1: map<string, nat>, m2: map<string, nat>, keys: set<string>)
    requires keys <= m1.Keys && keys <= m2.Keys
    requires forall k :: k in keys ==> m1[k] == m2[k]
    ensures SumOver(m1, keys) == SumOver(m2, keys)
    decreases keys
  {
    if keys != {} {
      var k :| k in keys && SumOver(m1, keys) == m1[k] + SumOver(m1, keys - {k});
      SumOverRemove(m2, keys, k);
      SumOverAgree(m1, m2, keys - {k});
    }
  }

  /** Counting one more occurrence adds one to the sum of the counts. */
  lemma {:induction false} MapSumBump(m: map<string, nat>, k: string)
    ensures MapSum(Bump(m, k)) == MapSum(m) + 1
  {
    var m' := Bump(m, k);
    if k in m {
      assert m'.Keys == m.Keys;
      SumOverRemove(m', m'.Keys, k);
      SumOverRemove(m, m.Keys, k);
      SumOverAgree(m, m', m.Keys - {k});
    } else {
      assert m'.Keys - {k} == m.Keys;
      SumOverRemove(m', m'.Keys, k);
      SumOverAgree(m, m', m.Keys);
    }
  }

  /** The empty map sums to zero. */
  lemma MapSumEmpty()
    ensures MapSum(map[]) == 0
  {
    var e: map<string, nat> := map[];
    assert e.Keys == {};
  }

  /** One iteration adds one visit to the record's stadium and one to its league, whatever the scores. */
  lemma StepCounts(st: Stats, r: AttendanceRecord)
    ensures Step(st, r).stadiumVisits == Bump(st.stadiumVisits, r.stadium)
    ensures Step(st, r).leagueCount == Bump(st.leagueCount, r.league)
  {
  }

  /** What the loop adds to the win, draw and loss counters: the reference counts of the records. */
  lemma {:induction false} FoldTallies(init: Stats, rs: seq<AttendanceRecord>)
    ensures Fold(init, rs).wins == init.wins + CountWhere(rs, HomeWin)
    ensures Fold(init, rs).draws == init.draws + CountWhere(rs, Level)
    ensures Fold(init, rs).losses == init.losses + CountWhere(rs, AwayWin)
    decreases |rs|
  {
    if rs != [] {
      FoldTallies(init, rs[..|rs| - 1]);
    }
  }

  /**
   * What the loop adds to the per-stadium counts: each stadium's count grows by the
   * number of records naming it, keys appear only for stadiums that occur, and the
   * values grow in sum by the number of records.
   */
  lemma {:induction false} FoldStadiums(init: Stats, rs: seq<AttendanceRecord>)
    ensures forall k :: Lookup(Fold(init, rs).stadiumVisits, k) == Lookup(init.stadiumVisits, k) + StadiumCount(rs, k)
    ensures forall k :: k in Fold(init, rs).stadiumVisits <==> k in init.stadiumVisits || StadiumCount(rs, k) > 0
    ensures MapSum(Fold(init, rs).stadiumVisits) == MapSum(init.stadiumVisits) + |rs|
    decreases |rs|
  {
    if rs != [] {
      var front, last := rs[..|rs| - 1], rs[|rs| - 1];
      var prev := Fold(init, front);
      FoldStadiums(init, front);
      StepCounts(prev, last);
      assert Fold(init, rs).stadiumVisits == Bump(prev.stadiumVisits, last.stadium);
      MapSumBump(prev.stadiumVisits, last.stadium);
    }
  }

  /** The same for the per-league counts. */
  lemma {:induction false} FoldLeagues(init: Stats, rs: seq<AttendanceRecord>)
    ensures forall k :: Lookup(Fold(init, rs).leagueCount, k) == Lookup(init.leagueCount, k) + LeagueCount(rs, k)
    ensures forall k :: k in Fold(init, rs).leagueCount <==> k in init.leagueCount || LeagueCount(rs, k) > 0
    ensures MapSum(Fold(init, rs).leagueCount) == MapSum(init.leagueCount) + |rs|
    decreases |rs|
  {
    if rs != [] {
      var front, last := rs[..|rs| - 1], rs[|rs| - 1];
      var prev := Fold(init, front);
      FoldLeagues(init, front);
      StepCounts(prev, last);
      assert Fold(init, rs).leagueCount == Bump(prev.leagueCount, last.league);
      MapSumBump(prev.leagueCount, last.league);
    }
  }

  /**
   * The report for a list of records: the total is the number of records and equals
   * the sum of the per-stadium counts and the sum of the per-league counts; each
   * count is the number of records naming that stadium or league; wins, draws and
   * losses count the records with both scores by home-against-away comparison, and
   * together they are exactly the records with both scores.
   */
  lemma {:induction false} AggregateSpec(rs: seq<AttendanceRecord>)
    ensures Aggregate(rs).totalMatches == |rs|
    ensures MapSum(Aggregate(rs).stadiumVisits) == |rs|
    ensures MapSum(Aggregate(rs).leagueCount) == |rs|
    ensures forall k :: Lookup(Aggregate(rs).stadiumVisits, k) == StadiumCount(rs, k)
    ensures forall k :: Lookup(Aggregate(rs).leagueCount, k) == LeagueCount(rs, k)
    ensures forall k :: k in Aggregate(rs).stadiumVisits <==> StadiumCount(rs, k) > 0
    ensures forall k :: k in Aggregate(rs).leagueCount <==> LeagueCount(rs, k) > 0
    ensures Aggregate(rs).wins == CountWhere(rs, HomeWin)
    ensures Aggregate(rs).draws == CountWhere(rs, Level)
    ensures Aggregate(rs).losses == CountWhere(rs, AwayWin)
    ensures Aggregate(rs).wins + Aggregate(rs).draws + Aggregate(rs).losses == CountWhere(rs, Scored)
  {
    var init := Stats(|rs|, 0, 0, 0, map[], map[]);
    FoldTallies(init, rs);
    FoldStadiums(init, rs);
    FoldLeagues(init, rs);
    MapSumEmpty();
    OutcomesPartitionScored(rs);
  }

  /** Every record with both scores is exactly one of a home win, a draw or an away win. */
  lemma {:induction false} OutcomesPartitionScored(rs: seq<AttendanceRecord>)
    ensures CountWhere(rs, HomeWin) + CountWhere(rs, Level) + CountWhere(rs, AwayWin) == CountWhere(rs, Scored)
    decreases |rs|
  {
    if rs != [] {
      OutcomesPartitionScored(rs[..|rs| - 1]);
    }
  }

  /** Three records, one without scores: it is counted everywhere except in the tally. */
  lemma ThreeRecordExample()
    ensures var rs := [AttendanceRecord("r1", "u", "X", "A", Value(2), Value(1)),
                       AttendanceRecord("r2", "u", "Y", "A", Value(0), Value(0)),
                       AttendanceRecord("r3", "u", "X", "B", Null, Null)];
            Aggregate(rs) == Stats(3, 1, 1, 0, map["A" := 2, "B" := 1], map["X" := 2, "Y" := 1])
  {
    var rs := [AttendanceRecord("r1", "u", "X", "A", Value(2), Value(1)),
               AttendanceRecord("r2", "u", "Y", "A", Value(0), Value(0)),
               AttendanceRecord("r3", "u", "X", "B", Null, Null)];
    var init := Stats(3, 0, 0, 0, map[], map[]);
    assert Fold(init, rs[..1][..0]) == init by { assert rs[..1][..0] == []; }
    assert rs[..1][0] == rs[0] && rs[..2][1] == rs[1] && rs[..2][..1] == rs[..1] && rs[..3] == rs;
    var e: map<string, nat> := map[];
    assert Bump(e, "A") == map["A" := 1] && Bump(e, "X") == map["X" := 1];
    var s1 := Fold(init, rs[..1]);
    assert s1 == Step(init, rs[0]);
    assert s1 == Stats(3, 1, 0, 0, map["A" := 1], map["X" := 1]);
    var s2 := Fold(init, rs[..2]);
    assert s2 == Step(s1, rs[1]);
    assert Bump(map["A" := 1], "A") == map["A" := 2];
    assert s2 == Stats(3, 1, 1, 0, map["A" := 2], map["X" := 1, "Y" := 1]);
    assert Fold(init, rs) == Step(s2, rs[2]);
    assert Bump(map["X" := 1, "Y" := 1], "X") == map["X" := 2, "Y" := 1];
    assert rs[..3] == rs;
  }
}

=== FILE: tokens.dfy ===
/**
 * `registerFCMToken`: a callable endpoint that stores the caller's device token on
 * their user document.
 */
module TokenRegistration {
  import opened Wrappers
  import opened Schema

  /** `{success: true}`, and the store the update leaves behind. */
  datatype Registered = Registered(success: bool, store: Store)

  /** The caller's user document with the new token and `updatedAt` set to the server time. */
  function SetToken(users: seq<User>, uid: Id, token: string, now: int): (r: seq<User>)
    ensures |r| == |users|
    ensures forall i :: 0 <= i < |users| ==>
              r[i] == if users[i].id == uid then users[i].(fcmToken := Some(token), updatedAt := Some(now)) else users[i]
  {
    if users == [] then []
    else [if users[0].id == uid then users[0].(fcmToken := Some(token), updatedAt := Some(now)) else users[0]]
         + SetToken(users[1..], uid, token, now)
  }

  /**
   * The callable's `data` argument: `null` (or absent) when the client passes no
   * argument, otherwise an object whose `token` field may be missing.
   */
  datatype CallData = NoData | Data(token: Option<string>)

  /**
   * One call with caller identity `auth` and argument `data` at server time `now`.
   * The identity is checked first; destructuring a `null` argument throws, which the
   * callable wrapper reports as `internal`; then the token is checked; a failed call
   * writes nothing.
   */
  function RegisterToken(auth: Option<Id>, data: CallData, now: int, s: Store): (r: Result<Registered, CallError>)
    ensures r == Failure(Unauthenticated) <==> auth.None?
    ensures r == Failure(InvalidArgument) <==>
              auth.Some? && data.Data? && (data.token.None? || data.token.value == "")
    ensures r == Failure(Internal) <==>
              auth.Some? && (data.NoData? || (data.token.Some? && data.token.value != "" && FindUser(s.users, auth.value).None?))
    ensures r.Success? ==>
              && r.value.success
              && data.Data? && data.token.Some?
              && r.value.store.matches == s.matches
              && r.value.store.settings == s.settings
              && r.value.store.attendance == s.attendance
              && |r.value.store.users| == |s.users|
              && forall i :: 0 <= i < |s.users| ==>
                   r.value.store.users[i]
                   == if s.users[i].id == auth.value
                      then s.users[i].(fcmToken := data.token, updatedAt := Some(now))
                      else s.users[i]
  {
    if auth.None? then Failure(Unauthenticated)
    else if data.NoData? then Failure(Internal)
    else if data.token.None? || data.token.value == "" then Failure(InvalidArgument)
    else if FindUser(s.users, auth.value).None? then Failure(Internal)
    else Success(Registered(true, s.(users := SetToken(s.users, auth.value, data.token.value, now))))
  }

  /** After a successful registration the caller's token is what they sent, and a push to them would use it. */
  lemma {:induction false} RegisteredTokenIsFound(auth: Option<Id>, data: CallData, now: int, s: Store)
    requires RegisterToken(auth, data, now, s).Success?
    ensures FindUser(RegisterToken(auth, data, now, s).value.store.users, auth.value).Some?
    ensures FindUser(RegisterToken(auth, data, now, s).value.store.users, auth.value).value.fcmToken == data.token
  {
    var users := s.users;
    var users' := RegisterToken(auth, data, now, s).value.store.users;
    var u := FindUser(users, auth.value).value;
    var i :| 0 <= i < |users| && users[i] == u;
    assert users'[i] in users' && users'[i].id == auth.value;
    forall v | v in users' && v.id == auth.value
      ensures v.fcmToken == data.token
    {
      var j :| 0 <= j < |users'| && users'[j] == v;
      assert users[j].id == auth.value;
    }
  }
}

=== FILE: wrappers.dfy ===
/** Optional values and call outcomes used across the model. */
module Wrappers {

  /** A document field that may be absent, or a lookup that may miss. */
  datatype Option<+T> = None | Some(value: T)

  /** The outcome of a callable endpoint: its return value, or the error code it throws. */
  datatype Result<+R, +E> = Success(value: R) | Failure(error: E)
}
